=== FILE: README.md ===
# SMBClient NTLM and QUERY_DIRECTORY in Dafny

A model of two parts of the Swift SMB2 client library SMBClient, with proofs about it:

- **NTLM** (`Sources/SMBClient/NTLM.swift`). This covers:
  - the NEGOTIATE, CHALLENGE and AUTHENTICATE messages of the NTLM authentication protocol (MS-NLMP), and their `Fields` payload descriptors;
  - the `NegotiateFlags` option set;
  - the NTLMv2 client-challenge blob and the `AVPair` attribute/value record;
  - the client's NTLMv2 computation in `ChallengeMessage.ntowfv2` and `ChallengeMessage.authenticateMessage`: the response key, the NT proof, the key exchange and the message integrity code (MIC).
- **QUERY_DIRECTORY** (`Sources/SMBClient/Messages/QueryDirectory.swift`). This covers:
  - the SMB2 QUERY_DIRECTORY request encoder;
  - the response decoder, which walks the chain of FILE_ID_BOTH_DIR_INFORMATION records that their NextEntryOffset fields link together.

Files:

| file | module | contents |
|---|---|---|
| `wrappers.dfy` | `Wrappers` | `Option` with `:-` propagation |
| `bytes.dfy` | `Bytes` | bytes, little-endian integers, reading a field back from a byte sequence, `Flatten` |
| `platform.dfy` | `Platform` | MD4, HMAC-MD5, RC4 and the Foundation string conversions, as parameters |
| `ntlmv2.dfy` | `NtlmV2` | NTLMv2_CLIENT_CHALLENGE and AV_PAIR |
| `ntlm.dfy` | `Ntlm` | NegotiateFlags, Fields, the three NTLM messages |
| `ntlm_auth.dfy` | `NtlmAuth` | NTOWFv2, the AUTHENTICATE message the client builds, and what a server checks |
| `query_directory.dfy` | `QueryDirectory` | request, record decoder, chain walk, response decoder |

Integers follow the Swift field widths: `byte`, `u16`, `u32` and `u64` are subset types of `int`. Swift's `data += x` for an integer appends it little-endian (`LE16`/`LE32`/`LE64`), and `ByteReader.read()` reads it back (`ReadU16`/`ReadU32`/`ReadU64`).

Where Swift would trap, the model does one of two things:

- Conversions that trap (`UInt16(value.count)` for a payload of 64 KiB or more) become preconditions. The source does not handle those cases.
- Reads past the end of a buffer become `None`.

What a server does is not in the library. It is written as a reference so the client's output can be checked against it:

- `NtlmAuth.ServerAccepts` is the check of section 3.2.5.1.2 of MS-NLMP;
- `Ntlm.EncodeChallenge` is the server's CHALLENGE encoding;
- `QueryDirectory.EncodeChain` and `QueryDirectory.EncodeResponse` are the server's directory listing.

Two places where the code does something other than the protocol description:

- **The NEGOTIATE message never carries the names.** `NegotiateMessage.encoded()` appends the two descriptors a second time where the names belong. Both descriptors point at offset 64 and beyond, past the 56-byte end of the message. `Ntlm.EncodeNegotiate` and `Ntlm.NegotiateLayout` model exactly that.
- **The MIC covers different bytes.** The code computes it over the SMB2 NEGOTIATE response's security buffer, then the encoded NEGOTIATE message, then the AUTHENTICATE message with a zero MIC. The CHALLENGE message is not included, although MS-NLMP puts it between the other two. The model follows the code, and `NtlmAuth.ServerAccepts` is checked against a server that saw the same bytes.

The directory walk does not stop when the buffer runs out. It stops only at a record whose NextEntryOffset is 0. An offset that lands exactly at the end leaves an empty buffer, the next record cannot be read, and the model fails to decode (`None`).

## Model

| member | source | states |
|---|---|---|
| Ntlm.DefaultFlags | Sources/SMBClient/NTLM.swift:14-28 | the default flag word sets exactly the thirteen listed flags and none of the other nine named ones; its value is 0xE28A8235 |
| Ntlm.NewFields | Sources/SMBClient/NTLM.swift:283-288 | both lengths equal the value's byte count; the offset and value are kept |
| Ntlm.NewTextFields | Sources/SMBClient/NTLM.swift:290-296 | a string descriptor carries the string's bytes; a missing string gives an empty payload of length 0 |
| Ntlm.EncodeFields | Sources/SMBClient/NTLM.swift:298-304 | the descriptor is 8 bytes: len, maxLen and bufferOffset read back from offsets 0, 2 and 4 |
| Ntlm.PayloadsAddressable | Sources/SMBClient/NTLM.swift:197-201 | when each payload's offset follows the previous payload, every descriptor leads a reader to its own payload in the encoded message |
| Ntlm.NewNegotiate | Sources/SMBClient/NTLM.swift:31-39 | signature, type 1, version 0, the flags given; the two descriptors hold the bytes of the domain and workstation names (empty when missing), the workstation payload's offset following the domain's, starting at 64 |
| Ntlm.EncodeNegotiate | Sources/SMBClient/NTLM.swift:41-55 | the message is 56 bytes, and bytes [40,56) repeat the two descriptors at [16,32) instead of the names |
| Ntlm.NegotiateLayout | Sources/SMBClient/NTLM.swift:13-55 | field layout of the NEGOTIATE message: 'NTLMSSP\0', type 1, flags, name lengths, offsets 64 and 64+len, version 0; no descriptor leads to a payload inside the message |
| Ntlm.SignatureOnWire | Sources/SMBClient/NTLM.swift:32-43 | `signature.bigEndian` puts the bytes 'NTLMSSP\0' on the wire |
| Ntlm.DecodeChallenge | Sources/SMBClient/NTLM.swift:74-90 | decoding succeeds exactly when the 56-byte fixed part is present and both payloads lie inside the data; the target name and target info are the bytes the descriptors at 12 and 40 point to; every fixed field (signature, type, both descriptors, flags, server challenge, reserved, version) is the value read at its offset |
| Ntlm.ChallengeRoundTrip | Sources/SMBClient/NTLM.swift:74-90 | decoding a server-encoded CHALLENGE message gives back every field |
| Ntlm.ChallengeFixedPart | Sources/SMBClient/NTLM.swift:75-87 | every fixed field of the CHALLENGE message is read from its own offset |
| Ntlm.NewAuthenticate | Sources/SMBClient/NTLM.swift:173-221 | six payloads chained from offset 88 in order LM, NT, domain, user, workstation, key; LM is 24 zero bytes; missing values are empty; type 3, the default flags, the version constant; an empty MIC becomes 16 zero bytes |
| Ntlm.EncodeAuthenticate | Sources/SMBClient/NTLM.swift:223-243 | the encoding is 72 bytes plus the MIC plus the sum of the six payload lengths |
| Ntlm.VersionOnWire | Sources/SMBClient/NTLM.swift:219 | the version field goes on the wire as 00 0A 02 00 00 00 00 0F |
| Ntlm.AuthenticateLayout | Sources/SMBClient/NTLM.swift:223-243 | layout of a chained message: descriptors at 12+8k, flags at 60, version at 64, MIC at [72,88); each descriptor leads to its own payload |
| Ntlm.AuthenticatePayloads | Sources/SMBClient/NTLM.swift:183-201 | the descriptors at 12, 20, 28, 36, 44 and 52 lead to the LM, NT, domain, user, workstation and key payloads |
| Ntlm.MicOnlyDiffers | Sources/SMBClient/NTLM.swift:145-156 | putting in the real MIC changes bytes [72,88) and nothing else |
| NtlmAuth.Ntowfv2 | Sources/SMBClient/NTLM.swift:92-107 | the response key is HMAC-MD5 keyed by MD4(UTF-16LE(password)) over UTF-16LE(uppercased(user)) followed by UTF-16LE(domain); the domain is not upper-cased |
| NtlmAuth.ResponseKeyMissingIsEmpty | Sources/SMBClient/NTLM.swift:116-120 | a missing user name, password or domain gives the same response key as the empty string |
| NtlmAuth.Ntowfv2IgnoresUserCase | Sources/SMBClient/NTLM.swift:92-107 | user names that upper-case the same give the same response key |
| NtlmAuth.Ntowfv2DependsOnPasswordHash | Sources/SMBClient/NTLM.swift:97-104 | the password affects the key only through the MD4 hash of its UTF-16LE form |
| NtlmAuth.NtChallengeResponse | Sources/SMBClient/NTLM.swift:122-137 | the NT response is 52 bytes plus the target info, its first 16 bytes verify as the NT proof over the server challenge and the rest, and the rest is the client-challenge blob |
| NtlmAuth.EncryptedSessionKey | Sources/SMBClient/NTLM.swift:132-135 | the exchanged key is as long as the random key, and RC4 under the session base key decrypts it back to the random key |
| NtlmAuth.DraftAuthenticate | Sources/SMBClient/NTLM.swift:139-143 | the message the MIC is computed over is chained, has a zero MIC, and has no domain or workstation |
| NtlmAuth.AuthenticateFor | Sources/SMBClient/NTLM.swift:109-157 | the sent message equals the draft except for the MIC; signature, type 3, the default flags and the version constant; the MIC is HMAC-MD5 under the random key over the security buffer, the NEGOTIATE bytes and the draft; the user name is sent and the domain is not |
| NtlmAuth.AuthenticateWireHeader | Sources/SMBClient/NTLM.swift:181-234 | the encoded message starts with 'NTLMSSP\0' and type 3, carries the flag word 0xE28A8235 at 60 and the version bytes 00 0A 02 00 00 00 00 0F at [64,72) |
| NtlmAuth.MicOverDraftVerifies | Sources/SMBClient/NTLM.swift:145-156 | a MIC computed over a zero-MIC draft verifies once substituted |
| NtlmAuth.AcceptedWhen | Sources/SMBClient/NTLM.swift:131-156 | a chained message whose NT proof verifies, and whose MIC verifies under the key the exchanged key decrypts to, is accepted |
| NtlmAuth.AuthenticateAccepted | Sources/SMBClient/NTLM.swift:74-157 | end to end: for any CHALLENGE bytes that decode, the encoded AUTHENTICATE message passes the server's NTLMv2 and MIC checks under the same response key |
| NtlmAuth.AuthenticateContents | Sources/SMBClient/NTLM.swift:116-156 | in the encoded message: LM is 24 zero bytes, the NT response carries the target info verbatim at 44, the domain and workstation are empty, the user name is present, and the exchanged key is 16 bytes |
| NtlmV2.NewClientChallenge | Sources/SMBClient/NTLM.swift:318-331 | response types 1 and 1, all reserved fields 0, and the timestamp, client challenge and AV pairs as given |
| NtlmV2.EncodeClientChallenge | Sources/SMBClient/NTLM.swift:333-345 | the blob is 28 bytes plus the client challenge plus the AV pairs |
| NtlmV2.ClientChallengeLayout | Sources/SMBClient/NTLM.swift:318-345 | blob layout: versions 1 and 1, six zero bytes, the timestamp at 8, the client challenge at 16, four zero bytes, the target info verbatim at 28, eight zero bytes at the end |
| NtlmV2.AvIdFromRaw | Sources/SMBClient/NTLM.swift:353-365 | a raw id is known exactly when it is at most 0x000A; a known id keeps its raw value |
| NtlmV2.AvIdRoundTrip | Sources/SMBClient/NTLM.swift:353-365 | every id converts to its raw value and back |
| NtlmV2.NewAvPair | Sources/SMBClient/NTLM.swift:367-371 | the id and value are kept, and the length field equals the value's length |
| NtlmV2.EncodeAvPair | Sources/SMBClient/NTLM.swift:380-386 | the encoding is 4 bytes plus the value |
| NtlmV2.DecodeAvPair | Sources/SMBClient/NTLM.swift:373-378 | decoding succeeds exactly when the id is known and the value lies inside the data; the value is the avLen bytes after the 4-byte head |
| NtlmV2.AvPairRoundTrip | Sources/SMBClient/NTLM.swift:373-386 | decoding an encoded pair gives it back, whatever follows |
| QueryDirectory.RawValueInjective | Sources/SMBClient/Messages/QueryDirectory.swift:16-25 | distinct information classes have distinct wire bytes |
| QueryDirectory.NewRequest | Sources/SMBClient/Messages/QueryDirectory.swift:40-71 | header: credit charge 1, QUERY_DIRECTORY, 64 credits, the given ids and header flags; structure size 33, file index 0, name offset 96, output length 0x10000; the given class, flags and file id are kept; name length is the UTF-16LE length mod 2^16; buffer is the name plus two zero bytes |
| QueryDirectory.EncodeRequest | Sources/SMBClient/Messages/QueryDirectory.swift:73-86 | the encoding is 80 bytes plus the file id and the buffer (field positions in RequestLayout) |
| QueryDirectory.RequestLayout | Sources/SMBClient/Messages/QueryDirectory.swift:61-86 | with a 16-byte file id every field sits at its offset, the name starts at the announced offset 96, and a name under 64 KiB is found where offset and length say |
| QueryDirectory.DecodeEntry | Sources/SMBClient/Messages/QueryDirectory.swift:141-161 | a record decodes exactly when its 104-byte fixed part and FileNameLength bytes of name fit; every fixed field is the little-endian read at its offset; the short name is the 24 bytes at 70 and the file id the 8 bytes at 96, both names as UTF-16LE or hex |
| QueryDirectory.EntryRoundTrip | Sources/SMBClient/Messages/QueryDirectory.swift:141-161 | decoding a server-encoded record gives every field back, whatever follows it |
| QueryDirectory.WalkChain | Sources/SMBClient/Messages/QueryDirectory.swift:107-117 | a walk that succeeds returns at least one record, the first decoded at the start, the last with offset 0, and no other with offset 0 |
| QueryDirectory.WalkChainIsChain | Sources/SMBClient/Messages/QueryDirectory.swift:107-117 | the walk returns a list exactly when it is a chain of the buffer: each record decodes at the sum of the earlier offsets |
| QueryDirectory.OutputBuffer | Sources/SMBClient/Messages/QueryDirectory.swift:100-105 | the buffer is the slice at OutputBufferOffset of OutputBufferLength bytes; it fails when the fixed part is short, when the end overflows 32 bits, or when it lies past the data |
| QueryDirectory.DecodeResponse | Sources/SMBClient/Messages/QueryDirectory.swift:97-120 | a response decodes exactly when its buffer does and, if the buffer is not empty, the walk succeeds; the header is the first 64 bytes and the structure size the value at 64; an empty buffer gives no records, otherwise the records form a chain |
| QueryDirectory.ChainRoundTrip | Sources/SMBClient/Messages/QueryDirectory.swift:107-117 | walking a server-encoded chain, with any zero padding between records up to each NextEntryOffset, gives back every record, in order |
| QueryDirectory.ResponseBuffer | Sources/SMBClient/Messages/QueryDirectory.swift:100-105 | in an encoded response, the fixed body names its own buffer |
| QueryDirectory.ResponseRoundTrip | Sources/SMBClient/Messages/QueryDirectory.swift:97-120 | decoding a server's response gives back the header, structure size 9, offset 72, the buffer, and every record of the (possibly padded) chain in order |

## Left out

- MD4, HMAC-MD5 and RC4 (CommonCrypto) are parameters in `Crypto`. The model assumes only 16-byte digests and that RC4 preserves length and is its own inverse under one key.
- The Foundation string conversions are parameters in `TextCodec`: `Data + String`, UTF-16LE encoding and decoding, `Data.hex` and `String.uppercased()`. The model assumes only that the empty string converts to no bytes and that UTF-16LE encodes a concatenation as the concatenation of the encodings.
- `Crypto.randomBytes` and the clock (`Date()`, `FileTime`) are parameters: the client challenge, the random session key and the timestamp in `NtlmAuth.Inputs`.
- `Header.encoded()` is not part of this model. The request encoder takes it as a parameter, and the response keeps the 64 header bytes without decoding them.
- `ByteReader` is not part of this model. A read past the end is a decoding failure (`None`), not a crash.
- `FileAttributes` is kept as its raw 32-bit value.
- The NEGOTIATE message is only encoded, never decoded, because the code has no decoder for it.
- Swift traps on `UInt16(...)` conversions of payloads of 64 KiB or more, and on a `repeat` loop reading past the end. These are preconditions or `None`; the crash itself is not modelled.
- Not modelled at all: SMBClient.swift and the other messages (session setup, tree connect, create, read, write), the connection state machine, credits and message ids, the file streams, and the example GUI.
- NtlmAuth.Ntowfv2IgnoresUserCase: the lemma relies only on `uppercased` being a function. What upper-casing does to a particular string is not modelled.
- NtlmAuth.AuthenticateAccepted: this states acceptance by a server that uses the same preceding bytes and response key, not by MS-NLMP's NEGOTIATE ++ CHALLENGE ++ AUTHENTICATE order. The code does not use that order, so an implementation that follows the standard would compute a different MIC.

=== FILE: bytes.dfy ===
/** The byte-level substrate: fixed-width unsigned integers, their
    little-endian wire form (what `Data += <integer>` appends and what
    `ByteReader.read()` reads back), and concatenation of byte blocks. */
module Bytes {

  type byte = x: int | 0 <= x < 0x100
  type u16 = x: int | 0 <= x < 0x1_0000
  type u32 = x: int | 0 <= x < 0x1_0000_0000
  type u64 = x: int | 0 <= x < 0x1_0000_0000_0000_0000
  type Bytes = seq<byte>

  /** `Data(count: n)`: n zero bytes. */
  function Zeros(n: nat): (r: Bytes)
    ensures |r| == n
    ensures forall i | 0 <= i < n :: r[i] == 0
  {
    seq(n, _ => 0)
  }

  // ---------------------------------------------------------------------
  // Little-endian encoding

  function LE16(x: u16): (r: Bytes)
    ensures |r| == 2
  {
    [x % 0x100, x / 0x100]
  }

  function LE32(x: u32): (r: Bytes)
    ensures |r| == 4
  {
    LE16(x % 0x1_0000) + LE16(x / 0x1_0000)
  }

  function LE64(x: u64): (r: Bytes)
    ensures |r| == 8
  {
    LE32(x % 0x1_0000_0000) + LE32(x / 0x1_0000_0000)
  }

  // ---------------------------------------------------------------------
  // Little-endian decoding of an exact-width block

  function U16(b: Bytes): u16
    requires |b| == 2
  {
    b[0] as int + 0x100 * (b[1] as int)
  }

  function U32(b: Bytes): u32
    requires |b| == 4
  {
    U16(b[..2]) + 0x1_0000 * U16(b[2..])
  }

  function U64(b: Bytes): u64
    requires |b| == 8
  {
    U32(b[..4]) + 0x1_0000_0000 * U32(b[4..])
  }

  /** Reads at an absolute offset, as `ByteReader` does at its cursor. */
  function ReadU16(s: Bytes, at: nat): u16
    requires at + 2 <= |s|
  {
    U16(s[at..at + 2])
  }

  function ReadU32(s: Bytes, at: nat): u32
    requires at + 4 <= |s|
  {
    U32(s[at..at + 4])
  }

  function ReadU64(s: Bytes, at: nat): u64
    requires at + 8 <= |s|
  {
    U64(s[at..at + 8])
  }

  // ---------------------------------------------------------------------
  // Round trips: decoding inverts encoding and vice versa

  lemma U16RoundTrip(x: u16)
    ensures U16(LE16(x)) == x
  {
  }

  lemma LE16RoundTrip(b: Bytes)
    requires |b| == 2
    ensures LE16(U16(b)) == b
  {
  }

  lemma U32RoundTrip(x: u32)
    ensures U32(LE32(x)) == x
  {
    var b := LE32(x);
    assert b[..2] == LE16(x % 0x1_0000);
    assert b[2..] == LE16(x / 0x1_0000);
    U16RoundTrip(x % 0x1_0000);
    U16RoundTrip(x / 0x1_0000);
  }

  lemma LE32RoundTrip(b: Bytes)
    requires |b| == 4
    ensures LE32(U32(b)) == b
  {
    var lo, hi := U16(b[..2]), U16(b[2..]);
    assert U32(b) % 0x1_0000 == lo;
    assert U32(b) / 0x1_0000 == hi;
    LE16RoundTrip(b[..2]);
    LE16RoundTrip(b[2..]);
    assert b == b[..2] + b[2..];
  }

  lemma U64RoundTrip(x: u64)
    ensures U64(LE64(x)) == x
  {
    var b := LE64(x);
    assert b[..4] == LE32(x % 0x1_0000_0000);
    assert b[4..] == LE32(x / 0x1_0000_0000);
    U32RoundTrip(x % 0x1_0000_0000);
    U32RoundTrip(x / 0x1_0000_0000);
  }

  lemma LE64RoundTrip(b: Bytes)
    requires |b| == 8
    ensures LE64(U64(b)) == b
  {
    var lo, hi := U32(b[..4]), U32(b[4..]);
    assert U64(b) % 0x1_0000_0000 == lo;
    assert U64(b) / 0x1_0000_0000 == hi;
    LE32RoundTrip(b[..4]);
    LE32RoundTrip(b[4..]);
    assert b == b[..4] + b[4..];
  }

  /** Reading a value back from the place it was appended. */
  lemma ReadBack16(pre: Bytes, x: u16, post: Bytes)
    ensures ReadU16(pre + LE16(x) + post, |pre|) == x
  {
    assert (pre + LE16(x) + post)[|pre|..|pre| + 2] == LE16(x);
    U16RoundTrip(x);
  }

  lemma ReadBack32(pre: Bytes, x: u32, post: Bytes)
    ensures ReadU32(pre + LE32(x) + post, |pre|) == x
  {
    assert (pre + LE32(x) + post)[|pre|..|pre| + 4] == LE32(x);
    U32RoundTrip(x);
  }

  lemma ReadBack64(pre: Bytes, x: u64, post: Bytes)
    ensures ReadU64(pre + LE64(x) + post, |pre|) == x
  {
    assert (pre + LE64(x) + post)[|pre|..|pre| + 8] == LE64(x);
    U64RoundTrip(x);
  }

  /** Reading a field whose bytes close a known prefix of the message. */
  lemma ReadAt16(r: Bytes, p: Bytes, x: u16)
    requires |p| + 2 <= |r| && r[..|p| + 2] == p + LE16(x)
    ensures ReadU16(r, |p|) == x
  {
    assert r[|p|..|p| + 2] == (p + LE16(x))[|p|..];
    U16RoundTrip(x);
  }

  lemma ReadAt32(r: Bytes, p: Bytes, x: u32)
    requires |p| + 4 <= |r| && r[..|p| + 4] == p + LE32(x)
    ensures ReadU32(r, |p|) == x
  {
    assert r[|p|..|p| + 4] == (p + LE32(x))[|p|..];
    U32RoundTrip(x);
  }

  lemma ReadAt64(r: Bytes, p: Bytes, x: u64)
    requires |p| + 8 <= |r| && r[..|p| + 8] == p + LE64(x)
    ensures ReadU64(r, |p|) == x
  {
    assert r[|p|..|p| + 8] == (p + LE64(x))[|p|..];
    U64RoundTrip(x);
  }

  /** Reading the last field of a known prefix, and dropping that field. */
  lemma Field16(r: Bytes, p: Bytes, x: u16)
    requires |p| + 2 <= |r| && r[..|p| + 2] == p + LE16(x)
    ensures ReadU16(r, |p|) == x && r[..|p|] == p
  {
    ReadAt16(r, p, x);
    PrefixShrink(r, p, LE16(x));
  }

  lemma Field32(r: Bytes, p: Bytes, x: u32)
    requires |p| + 4 <= |r| && r[..|p| + 4] == p + LE32(x)
    ensures ReadU32(r, |p|) == x && r[..|p|] == p
  {
    ReadAt32(r, p, x);
    PrefixShrink(r, p, LE32(x));
  }

  lemma Field64(r: Bytes, p: Bytes, x: u64)
    requires |p| + 8 <= |r| && r[..|p| + 8] == p + LE64(x)
    ensures ReadU64(r, |p|) == x && r[..|p|] == p
  {
    ReadAt64(r, p, x);
    PrefixShrink(r, p, LE64(x));
  }

  /** A read inside a window of a message is a read of the window. */
  lemma Window16(r: Bytes, at: nat, n: nat, i: nat)
    requires at + n <= |r| && i + 2 <= n
    ensures ReadU16(r, at + i) == ReadU16(r[at..at + n], i)
  {
    var direct, windowed := r[at + i..at + i + 2], r[at..at + n][i..i + 2];
    assert forall j | 0 <= j < 2 :: direct[j] == windowed[j];
    assert direct == windowed;
  }

  lemma Window32(r: Bytes, at: nat, n: nat, i: nat)
    requires at + n <= |r| && i + 4 <= n
    ensures ReadU32(r, at + i) == ReadU32(r[at..at + n], i)
  {
    var direct, windowed := r[at + i..at + i + 4], r[at..at + n][i..i + 4];
    assert forall j | 0 <= j < 4 :: direct[j] == windowed[j];
    assert direct == windowed;
  }

  /** A read inside a prefix of a message is a read of the prefix. */
  lemma PrefixRead32(r: Bytes, h: Bytes, i: nat)
    requires |h| <= |r| && r[..|h|] == h && i + 4 <= |h|
    ensures ReadU32(r, i) == ReadU32(h, i)
  {
    var direct, inner := r[i..i + 4], h[i..i + 4];
    assert forall j | 0 <= j < 4 :: direct[j] == inner[j];
    assert direct == inner;
  }

  lemma PrefixRead64(r: Bytes, h: Bytes, i: nat)
    requires |h| <= |r| && r[..|h|] == h && i + 8 <= |h|
    ensures ReadU64(r, i) == ReadU64(h, i)
  {
    var direct, inner := r[i..i + 8], h[i..i + 8];
    assert forall j | 0 <= j < 8 :: direct[j] == inner[j];
    assert direct == inner;
  }

  /** A read inside the second part of a concatenation. */
  lemma SuffixRead16(a: Bytes, b: Bytes, i: nat)
    requires i + 2 <= |b|
    ensures ReadU16(a + b, |a| + i) == ReadU16(b, i)
  {
    var direct, inner := (a + b)[|a| + i..|a| + i + 2], b[i..i + 2];
    assert forall j | 0 <= j < 2 :: direct[j] == inner[j];
    assert direct == inner;
  }

  /** A slice inside the middle part of a three-part concatenation. */
  lemma SliceMiddle(a: Bytes, b: Bytes, c: Bytes, i: nat, j: nat)
    requires i <= j <= |b|
    ensures (a + b + c)[|a| + i..|a| + j] == b[i..j]
  {
    var direct, inner := (a + b + c)[|a| + i..|a| + j], b[i..j];
    assert forall t | 0 <= t < j - i :: direct[t] == inner[t];
  }

  /** A slice inside the first part of a concatenation. */
  lemma SliceFirst(a: Bytes, b: Bytes, i: nat, j: nat)
    requires i <= j <= |a|
    ensures (a + b)[i..j] == a[i..j]
  {
    var direct, inner := (a + b)[i..j], a[i..j];
    assert forall t | 0 <= t < j - i :: direct[t] == inner[t];
  }

  /** A slice inside the last part of a concatenation. */
  lemma SliceLast(a: Bytes, b: Bytes, i: nat, j: nat)
    requires i <= j <= |b|
    ensures (a + b)[|a| + i..|a| + j] == b[i..j]
  {
    var direct, inner := (a + b)[|a| + i..|a| + j], b[i..j];
    assert forall t | 0 <= t < j - i :: direct[t] == inner[t];
  }

  /** Dropping a bytes and then b bytes drops a + b bytes. */
  lemma DropDrop(s: Bytes, a: nat, b: nat)
    requires a + b <= |s|
    ensures s[a..][b..] == s[a + b..]
  {
    var twice, once := s[a..][b..], s[a + b..];
    assert forall j | 0 <= j < |once| :: twice[j] == once[j];
  }

  /** A prefix of a prefix. */
  lemma PrefixShrink(r: Bytes, p: Bytes, q: Bytes)
    requires |p| + |q| <= |r| && r[..|p| + |q|] == p + q
    ensures r[..|p|] == p
  {
    assert r[..|p|] == (p + q)[..|p|];
  }

  // ---------------------------------------------------------------------
  // Swift's `.bigEndian` on a little-endian host: the byte-swapped value,
  // so that appending it little-endian puts the bytes in big-endian order.

  function Reverse8(b: Bytes): (r: Bytes)
    requires |b| == 8
    ensures |r| == 8
  {
    [b[7], b[6], b[5], b[4], b[3], b[2], b[1], b[0]]
  }

  function BigEndian64(x: u64): (r: u64)
    ensures LE64(r) == Reverse8(LE64(x))
  {
    var swapped := Reverse8(LE64(x));
    LE64RoundTrip(swapped);
    U64(swapped)
  }

  // ---------------------------------------------------------------------
  // Concatenation of byte blocks

  function Flatten(bs: seq<Bytes>): (r: Bytes)
  {
    if |bs| == 0 then [] else bs[0] + Flatten(bs[1..])
  }

  lemma {:induction false} FlattenSplit(bs: seq<Bytes>, k: nat)
    requires k <= |bs|
    ensures Flatten(bs) == Flatten(bs[..k]) + Flatten(bs[k..])
    decreases k
  {
    if k == 0 {
      assert bs[..0] == [];
      assert bs[0..] == bs;
    } else {
      FlattenSplit(bs[1..], k - 1);
      assert bs[1..][..k - 1] == bs[1..k];
      assert bs[1..][k - 1..] == bs[k..];
      assert bs[..k][1..] == bs[1..k];
      assert bs[..k][0] == bs[0];
    }
  }

  /** Block k of a concatenation sits right after the blocks before it. */
  lemma FlattenBlock(bs: seq<Bytes>, k: nat)
    requires k < |bs|
    ensures |Flatten(bs[..k])| + |bs[k]| <= |Flatten(bs)|
    ensures Flatten(bs)[|Flatten(bs[..k])|..|Flatten(bs[..k])| + |bs[k]|] == bs[k]
  {
    FlattenSplit(bs, k);
    assert bs[k..][1..] == bs[k + 1..];
    assert Flatten(bs[k..]) == bs[k] + Flatten(bs[k + 1..]);
  }

  /** Growing a prefix by one block adds that block's length. */
  lemma FlattenPrefixStep(bs: seq<Bytes>, k: nat)
    requires k < |bs|
    ensures |Flatten(bs[..k + 1])| == |Flatten(bs[..k])| + |bs[k]|
  {
    FlattenSplit(bs[..k + 1], k);
    assert bs[..k + 1][..k] == bs[..k];
    assert bs[..k + 1][k..] == [bs[k]];
    assert Flatten([bs[k]]) == bs[k] + Flatten([]);
  }

  /** The blocks before block k of uniformly sized blocks take k times that size. */
  lemma {:induction false} FlattenUniform(bs: seq<Bytes>, w: nat, k: nat)
    requires k <= |bs|
    requires forall i | 0 <= i < |bs| :: |bs[i]| == w
    ensures |Flatten(bs[..k])| == k * w
    decreases k
  {
    if k == 0 {
      assert bs[..0] == [];
    } else {
      FlattenUniform(bs, w, k - 1);
      FlattenPrefixStep(bs, k - 1);
    }
  }

  /** The length of a concatenation is the sum of the block lengths. */
  function TotalLength(bs: seq<Bytes>): nat
  {
    if |bs| == 0 then 0 else |bs[0]| + TotalLength(bs[1..])
  }

  lemma {:induction false} FlattenLength(bs: seq<Bytes>)
    ensures |Flatten(bs)| == TotalLength(bs)
  {
    if |bs| > 0 {
      FlattenLength(bs[1..]);
    }
  }
}

=== FILE: ntlm.dfy ===
/** The NTLM messages (section 2.2.1 of MS-NLMP): NEGOTIATE_MESSAGE,
    CHALLENGE_MESSAGE and AUTHENTICATE_MESSAGE, the Fields descriptor that
    locates their variable-length payloads, and the NegotiateFlags bit set. */
module Ntlm {
  import opened Bytes
  import opened Wrappers
  import opened Platform

  // ---------------------------------------------------------------------
  // NegotiateFlags (section 2.2.2.5 of MS-NLMP): an option set over the
  // 32-bit raw value the messages carry. Unknown bits are kept as they are.

  type NegotiateFlags = bv32

  const Negotiate56: NegotiateFlags := 0x8000_0000
  const NegotiateKeyExchange: NegotiateFlags := 0x4000_0000
  const Negotiate128: NegotiateFlags := 0x2000_0000
  const NegotiateVersion: NegotiateFlags := 0x0200_0000
  const NegotiateTargetInfo: NegotiateFlags := 0x0080_0000
  const RequestNonNTSessionKey: NegotiateFlags := 0x0040_0000
  const NegotiateIdentify: NegotiateFlags := 0x0010_0000
  const NegotiateExtendedSecurity: NegotiateFlags := 0x0008_0000
  const NegotiateTargetTypeServer: NegotiateFlags := 0x0002_0000
  const NegotiateTargetTypeDomain: NegotiateFlags := 0x0001_0000
  const NegotiateAlwaysSign: NegotiateFlags := 0x0000_8000
  const NegotiateOemWorkstationSupplied: NegotiateFlags := 0x0000_2000
  const NegotiateOemDomainSupplied: NegotiateFlags := 0x0000_1000
  const NegotiateAnonymous: NegotiateFlags := 0x0000_0800
  const NegotiateNetware: NegotiateFlags := 0x0000_0200
  const NegotiateLanManagerKey: NegotiateFlags := 0x0000_0080
  const NegotiateDatagramStyle: NegotiateFlags := 0x0000_0040
  const NegotiateSeal: NegotiateFlags := 0x0000_0020
  const NegotiateSign: NegotiateFlags := 0x0000_0010
  const RequestTarget: NegotiateFlags := 0x0000_0004
  const Oem: NegotiateFlags := 0x0000_0002
  const Unicode: NegotiateFlags := 0x0000_0001

  /** Option-set membership in a raw flag word. */
  predicate Has(raw: u32, flag: NegotiateFlags) {
    (raw as bv32) & flag == flag
  }

  /** The raw flag word both the NEGOTIATE and the AUTHENTICATE message send:
      exactly thirteen of the twenty-two named flags. */
  function DefaultFlags(): (raw: u32)
    ensures raw == 0xE28A_8235
    ensures Has(raw, Negotiate56) && Has(raw, NegotiateKeyExchange) && Has(raw, Negotiate128)
    ensures Has(raw, NegotiateVersion) && Has(raw, NegotiateTargetInfo) && Has(raw, NegotiateExtendedSecurity)
    ensures Has(raw, NegotiateTargetTypeServer) && Has(raw, NegotiateAlwaysSign) && Has(raw, NegotiateNetware)
    ensures Has(raw, NegotiateSeal) && Has(raw, NegotiateSign) && Has(raw, RequestTarget) && Has(raw, Unicode)
    ensures !Has(raw, RequestNonNTSessionKey) && !Has(raw, NegotiateIdentify) && !Has(raw, NegotiateTargetTypeDomain)
    ensures !Has(raw, NegotiateOemWorkstationSupplied) && !Has(raw, NegotiateOemDomainSupplied)
    ensures !Has(raw, NegotiateAnonymous) && !Has(raw, NegotiateLanManagerKey)
    ensures !Has(raw, NegotiateDatagramStyle) && !Has(raw, Oem)
  {
    (Negotiate56 | NegotiateKeyExchange | Negotiate128 | NegotiateVersion
      | NegotiateTargetInfo | NegotiateExtendedSecurity | NegotiateTargetTypeServer
      | NegotiateAlwaysSign | NegotiateNetware | NegotiateSeal | NegotiateSign
      | RequestTarget | Unicode) as int
  }

  // ---------------------------------------------------------------------
  // Fields: the (len, maxLen, bufferOffset) descriptor of a payload

  datatype Fields = Fields(len: u16, maxLen: u16, bufferOffset: u32, value: Bytes)

  /** Both lengths describe the value. */
  predicate ValidFields(f: Fields) {
    f.len == f.maxLen == |f.value|
  }

  /** `Fields(value: Data, offset:)`; `UInt16(value.count)` traps at 64 KiB. */
  function NewFields(value: Bytes, offset: u32): (f: Fields)
    requires |value| < 0x1_0000
    ensures ValidFields(f) && f.value == value && f.bufferOffset == offset
  {
    Fields(|value|, |value|, offset, value)
  }

  /** `Fields(value: String?, offset:)`: a missing string is the empty one. */
  function NewTextFields(text: TextCodec, value: Option<string>, offset: u32): (f: Fields)
    requires |text.data(value.GetOr(""))| < 0x1_0000
    ensures ValidFields(f) && f.bufferOffset == offset
    ensures f.value == text.data(value.GetOr(""))
    ensures text.Valid() && value.None? ==> f.len == 0 && f.value == []
  {
    NewFields(text.data(value.GetOr("")), offset)
  }

  /** The 8-byte descriptor: LE16 len, LE16 maxLen, LE32 bufferOffset. */
  function EncodeFields(f: Fields): (r: Bytes)
    ensures |r| == 8
    ensures ReadU16(r, 0) == f.len && ReadU16(r, 2) == f.maxLen && ReadU32(r, 4) == f.bufferOffset
  {
    ReadBack16([], f.len, LE16(f.maxLen) + LE32(f.bufferOffset));
    ReadBack16(LE16(f.len), f.maxLen, LE32(f.bufferOffset));
    ReadBack32(LE16(f.len) + LE16(f.maxLen), f.bufferOffset, []);
    LE16(f.len) + LE16(f.maxLen) + LE32(f.bufferOffset)
  }

  /** What a reader finds through the descriptor at `at`: the `len` bytes at
      `bufferOffset`, or nothing when they lie past the end of the message. */
  function PayloadAt(msg: Bytes, at: nat): (r: Option<Bytes>)
    requires at + 8 <= |msg|
    ensures r.Some? <==> ReadU32(msg, at + 4) + ReadU16(msg, at) <= |msg|
    ensures r.Some? ==> |r.value| == ReadU16(msg, at)
  {
    var len := ReadU16(msg, at);
    var offset := ReadU32(msg, at + 4);
    if offset + len <= |msg| then Some(msg[offset..offset + len]) else None
  }

  /** Descriptors laid out back to back: the first payload at `base`, each
      later one right after the one before. */
  predicate Chained(fs: seq<Fields>, base: int) {
    && (forall k | 0 <= k < |fs| :: ValidFields(fs[k]))
    && (|fs| > 0 ==> fs[0].bufferOffset == base)
    && (forall k | 0 <= k < |fs| - 1 :: fs[k + 1].bufferOffset == fs[k].bufferOffset + fs[k].len)
  }

  function Values(fs: seq<Fields>): (vs: seq<Bytes>)
    ensures |vs| == |fs|
    ensures forall k | 0 <= k < |fs| :: vs[k] == fs[k].value
  {
    seq(|fs|, k requires 0 <= k < |fs| => fs[k].value)
  }

  function Descriptors(fs: seq<Fields>): (ds: seq<Bytes>)
    ensures |ds| == |fs|
    ensures forall k | 0 <= k < |fs| :: ds[k] == EncodeFields(fs[k])
  {
    seq(|fs|, k requires 0 <= k < |fs| => EncodeFields(fs[k]))
  }

  /** In a chain, payload k starts after all the payloads before it. */
  lemma {:induction false} ChainedOffsets(fs: seq<Fields>, base: int, k: nat)
    requires Chained(fs, base)
    requires k < |fs|
    ensures fs[k].bufferOffset == base + |Flatten(Values(fs)[..k])|
    decreases k
  {
    if k == 0 {
      assert Values(fs)[..0] == [];
    } else {
      ChainedOffsets(fs, base, k - 1);
      FlattenPrefixStep(Values(fs), k - 1);
    }
  }

  /** Reading a descriptor back from where it was written. */
  lemma DescriptorAt(r: Bytes, at: nat, f: Fields)
    requires at + 8 <= |r| && r[at..at + 8] == EncodeFields(f)
    ensures ReadU16(r, at) == f.len && ReadU16(r, at + 2) == f.maxLen && ReadU32(r, at + 4) == f.bufferOffset
  {
    Window16(r, at, 8, 0);
    Window16(r, at, 8, 2);
    Window32(r, at, 8, 4);
  }

  /** A message made of a head, the descriptors of a chain, a middle part and
      then the payloads, where the chain starts right after the middle part:
      every descriptor leads a reader to its own payload. */
  lemma PayloadsAddressable(head: Bytes, fs: seq<Fields>, mid: Bytes, k: nat)
    requires Chained(fs, |head| + 8 * |fs| + |mid|)
    requires k < |fs|
    ensures var msg := head + Flatten(Descriptors(fs)) + mid + Flatten(Values(fs));
      && |head| + 8 * k + 8 <= |msg|
      && msg[|head| + 8 * k..|head| + 8 * k + 8] == EncodeFields(fs[k])
      && PayloadAt(msg, |head| + 8 * k) == Some(fs[k].value)
  {
    var front := head + Flatten(Descriptors(fs)) + mid;
    var msg := front + Flatten(Values(fs));
    DescriptorPlaced(head, fs, mid, k);
    var at := |head| + 8 * k;
    SliceFirst(front, Flatten(Values(fs)), at, at + 8);
    DescriptorAt(msg, at, fs[k]);
    PayloadPlaced(front, fs, k);
    PayloadFound(msg, at, fs[k]);
  }

  lemma PayloadFound(msg: Bytes, at: nat, f: Fields)
    requires at + 8 <= |msg|
    requires ReadU16(msg, at) == f.len && ReadU32(msg, at + 4) == f.bufferOffset
    requires f.bufferOffset + f.len <= |msg| && msg[f.bufferOffset..f.bufferOffset + f.len] == f.value
    ensures PayloadAt(msg, at) == Some(f.value)
  {
  }

  /** Descriptor k sits 8k bytes after the head. */
  lemma DescriptorPlaced(head: Bytes, fs: seq<Fields>, mid: Bytes, k: nat)
    requires k < |fs|
    ensures var front := head + Flatten(Descriptors(fs)) + mid;
      && |front| == |head| + 8 * |fs| + |mid|
      && front[|head| + 8 * k..|head| + 8 * k + 8] == EncodeFields(fs[k])
  {
    var ds := Descriptors(fs);
    FlattenUniform(ds, 8, |fs|);
    assert ds[..|fs|] == ds;
    FlattenUniform(ds, 8, k);
    FlattenBlock(ds, k);
    SliceMiddle(head, Flatten(ds), mid, 8 * k, 8 * k + 8);
  }

  /** Payload k of a chain starting right after `front` is where its
      descriptor says. */
  lemma PayloadPlaced(front: Bytes, fs: seq<Fields>, k: nat)
    requires Chained(fs, |front|)
    requires k < |fs|
    ensures var msg := front + Flatten(Values(fs));
      && fs[k].bufferOffset + fs[k].len <= |msg|
      && msg[fs[k].bufferOffset..fs[k].bufferOffset + fs[k].len] == fs[k].value
  {
    var vs := Values(fs);
    ChainedOffsets(fs, |front|, k);
    FlattenBlock(vs, k);
    var x := |Flatten(vs[..k])|;
    SliceLast(front, Flatten(vs), x, x + |vs[k]|);
  }

  // ---------------------------------------------------------------------
  // NEGOTIATE_MESSAGE (section 2.2.1.1 of MS-NLMP)

  /** 'NTLMSSP\0' read as a big-endian 64-bit integer. */
  const NtlmSignature: u64 := 0x4e54_4c4d_5353_5000

  /** 'NTLMSSP\0' on the wire. */
  const SignatureBytes: Bytes := [0x4E, 0x54, 0x4C, 0x4D, 0x53, 0x53, 0x50, 0x00]

  /** The signature field appended as `signature.bigEndian`. */
  lemma SignatureOnWire()
    ensures LE64(BigEndian64(NtlmSignature)) == SignatureBytes
  {
    var lo, hi := 0x5353_5000, 0x4e54_4c4d;
    assert NtlmSignature % 0x1_0000_0000 == lo && NtlmSignature / 0x1_0000_0000 == hi;
    assert LE32(lo) == [0x00, 0x50, 0x53, 0x53] by {
      assert lo % 0x1_0000 == 0x5000 && lo / 0x1_0000 == 0x5353;
    }
    assert LE32(hi) == [0x4D, 0x4C, 0x54, 0x4E] by {
      assert hi % 0x1_0000 == 0x4c4d && hi / 0x1_0000 == 0x4e54;
    }
    assert LE64(NtlmSignature) == [0x00, 0x50, 0x53, 0x53] + [0x4D, 0x4C, 0x54, 0x4E];
  }

  datatype NegotiateMessage = NegotiateMessage(
    signature: u64,
    messageType: u32,
    negotiateFlags: u32,
    domainName: Fields,
    workstationName: Fields,
    version: u64)

  function NewNegotiate(
    text: TextCodec,
    negotiateFlags: u32 := DefaultFlags(),
    domainName: Option<string> := None,
    workstationName: Option<string> := None): (m: NegotiateMessage)
    requires |text.data(domainName.GetOr(""))| < 0x1_0000
    requires |text.data(workstationName.GetOr(""))| < 0x1_0000
    ensures m.signature == NtlmSignature && m.messageType == 1 && m.version == 0
    ensures m.negotiateFlags == negotiateFlags
    ensures Chained([m.domainName, m.workstationName], 64)
    ensures m.domainName.value == text.data(domainName.GetOr(""))
    ensures m.workstationName.value == text.data(workstationName.GetOr(""))
  {
    var offset: u32 := 64;
    var domain := NewTextFields(text, domainName, offset);
    var workstation := NewTextFields(text, workstationName, offset + domain.len);
    NegotiateMessage(NtlmSignature, 0x0000_0001, negotiateFlags, domain, workstation, 0)
  }

  /** `NegotiateMessage.encoded()`: the two descriptors are appended a second
      time where the payloads would go, so the names themselves are never sent. */
  function EncodeNegotiate(m: NegotiateMessage): (r: Bytes)
    ensures |r| == 56
    ensures r[40..48] == r[16..24] == EncodeFields(m.domainName)
    ensures r[48..56] == r[24..32] == EncodeFields(m.workstationName)
  {
    LE64(BigEndian64(m.signature)) + LE32(m.messageType) + LE32(m.negotiateFlags)
      + LE16(m.domainName.len) + LE16(m.domainName.maxLen) + LE32(m.domainName.bufferOffset)
      + LE16(m.workstationName.len) + LE16(m.workstationName.maxLen) + LE32(m.workstationName.bufferOffset)
      + LE64(m.version)
      + (EncodeFields(m.domainName) + EncodeFields(m.workstationName))
  }

  /** The bytes of a NEGOTIATE message as built by default or with names: the
      signature, type 1, the flags, descriptors whose payloads start at the
      hard-coded offset 64, past the 56-byte end of the message, so that no
      reader can reach a name. */
  lemma NegotiateLayout(
    text: TextCodec, negotiateFlags: u32,
    domainName: Option<string>, workstationName: Option<string>)
    requires |text.data(domainName.GetOr(""))| < 0x1_0000
    requires |text.data(workstationName.GetOr(""))| < 0x1_0000
    ensures var m := NewNegotiate(text, negotiateFlags, domainName, workstationName);
      var r := EncodeNegotiate(m);
      && r[..8] == SignatureBytes
      && ReadU32(r, 8) == 1
      && ReadU32(r, 12) == negotiateFlags
      && ReadU16(r, 16) == |text.data(domainName.GetOr(""))|
      && ReadU32(r, 20) == 64
      && ReadU16(r, 24) == |text.data(workstationName.GetOr(""))|
      && ReadU32(r, 28) == 64 + |text.data(domainName.GetOr(""))|
      && ReadU64(r, 32) == 0
      && PayloadAt(r, 16).None? && PayloadAt(r, 24).None?
  {
    var m := NewNegotiate(text, negotiateFlags, domainName, workstationName);
    var r := EncodeNegotiate(m);
    SignatureOnWire();
    var dn, wn := m.domainName, m.workstationName;
    var p1 := LE64(BigEndian64(m.signature));
    var p2 := p1 + LE32(1);
    var p3 := p2 + LE32(negotiateFlags);
    var p4 := p3 + LE16(dn.len);
    var p5 := p4 + LE16(dn.maxLen);
    var p6 := p5 + LE32(dn.bufferOffset);
    var p7 := p6 + LE16(wn.len);
    var p8 := p7 + LE16(wn.maxLen);
    var p9 := p8 + LE32(wn.bufferOffset);
    var p10 := p9 + LE64(0);
    assert r == p10 + (EncodeFields(dn) + EncodeFields(wn));
    assert r[..|p10|] == p10;
    Field64(r, p9, 0);
    Field32(r, p8, wn.bufferOffset);
    Field16(r, p7, wn.maxLen);
    Field16(r, p6, wn.len);
    Field32(r, p5, dn.bufferOffset);
    Field16(r, p4, dn.maxLen);
    Field16(r, p3, dn.len);
    Field32(r, p2, negotiateFlags);
    Field32(r, p1, 1);
  }

  // ---------------------------------------------------------------------
  // CHALLENGE_MESSAGE (section 2.2.1.2 of MS-NLMP)

  datatype ChallengeMessage = ChallengeMessage(
    signature: u64,
    messageType: u32,
    targetNameLen: u16,
    targetNameMaxLen: u16,
    targetNameBufferOffset: u32,
    negotiateFlags: u32,
    serverChallenge: u64,
    reserved: u64,
    targetInfoLen: u16,
    targetInfoMaxLen: u16,
    targetInfoBufferOffset: u32,
    version: u64,
    targetName: Bytes,
    targetInfo: Bytes)

  /** The fixed part read field by field before the two payloads. */
  const ChallengeFixedSize: nat := 56

  /** `ChallengeMessage.init(data:)`. Neither the signature nor the message
      type is checked; a read past the end of `data` is a decoding failure. */
  function DecodeChallenge(data: Bytes): (r: Option<ChallengeMessage>)
    ensures r.Some? <==>
      |data| >= ChallengeFixedSize && PayloadAt(data, 12).Some? && PayloadAt(data, 40).Some?
    ensures r.Some? ==>
      && r.value.targetName == PayloadAt(data, 12).value
      && r.value.targetInfo == PayloadAt(data, 40).value
      && r.value.negotiateFlags == ReadU32(data, 20)
      && LE64(r.value.serverChallenge) == data[24..32]
    ensures r.Some? ==>
      && r.value.signature == ReadU64(data, 0) && r.value.messageType == ReadU32(data, 8)
      && r.value.targetNameLen == ReadU16(data, 12) && r.value.targetNameMaxLen == ReadU16(data, 14)
      && r.value.targetNameBufferOffset == ReadU32(data, 16)
      && r.value.reserved == ReadU64(data, 32)
      && r.value.targetInfoLen == ReadU16(data, 40) && r.value.targetInfoMaxLen == ReadU16(data, 42)
      && r.value.targetInfoBufferOffset == ReadU32(data, 44)
      && r.value.version == ReadU64(data, 48)
  {
    if |data| < ChallengeFixedSize then None
    else
      var targetName :- PayloadAt(data, 12);
      var targetInfo :- PayloadAt(data, 40);
      LE64RoundTrip(data[24..32]);
      Some(ChallengeMessage(
        ReadU64(data, 0), ReadU32(data, 8),
        ReadU16(data, 12), ReadU16(data, 14), ReadU32(data, 16),
        ReadU32(data, 20),
        ReadU64(data, 24), ReadU64(data, 32),
        ReadU16(data, 40), ReadU16(data, 42), ReadU32(data, 44),
        ReadU64(data, 48),
        targetName, targetInfo))
  }

  /** A CHALLENGE message as a server lays it out: the target name right after
      the fixed part and the target information right after the name. */
  predicate ServerLayout(c: ChallengeMessage) {
    && c.targetNameLen == |c.targetName|
    && c.targetInfoLen == |c.targetInfo|
    && c.targetNameBufferOffset == ChallengeFixedSize
    && c.targetInfoBufferOffset == ChallengeFixedSize + |c.targetName|
  }

  /** The server's encoding, the reference the decoder is checked against. */
  function EncodeChallenge(c: ChallengeMessage): (r: Bytes)
    ensures |r| == ChallengeFixedSize + |c.targetName| + |c.targetInfo|
  {
    LE64(c.signature) + LE32(c.messageType)
      + LE16(c.targetNameLen) + LE16(c.targetNameMaxLen) + LE32(c.targetNameBufferOffset)
      + LE32(c.negotiateFlags) + LE64(c.serverChallenge) + LE64(c.reserved)
      + LE16(c.targetInfoLen) + LE16(c.targetInfoMaxLen) + LE32(c.targetInfoBufferOffset)
      + LE64(c.version)
      + c.targetName + c.targetInfo
  }

  /** Decoding a server-laid-out CHALLENGE message gives back every field,
      unknown flag bits included. */
  lemma ChallengeRoundTrip(c: ChallengeMessage)
    requires ServerLayout(c)
    ensures DecodeChallenge(EncodeChallenge(c)) == Some(c)
  {
    var r := EncodeChallenge(c);
    ChallengeFixedPart(c);
    assert r[56..56 + |c.targetName|] == c.targetName;
    assert r[56 + |c.targetName|..56 + |c.targetName| + |c.targetInfo|] == c.targetInfo;
  }

  /** Every fixed field of a CHALLENGE message reads back from its position. */
  lemma ChallengeFixedPart(c: ChallengeMessage)
    ensures var r := EncodeChallenge(c);
      && ReadU64(r, 0) == c.signature && ReadU32(r, 8) == c.messageType
      && ReadU16(r, 12) == c.targetNameLen && ReadU16(r, 14) == c.targetNameMaxLen
      && ReadU32(r, 16) == c.targetNameBufferOffset && ReadU32(r, 20) == c.negotiateFlags
      && ReadU64(r, 24) == c.serverChallenge && ReadU64(r, 32) == c.reserved
      && ReadU16(r, 40) == c.targetInfoLen && ReadU16(r, 42) == c.targetInfoMaxLen
      && ReadU32(r, 44) == c.targetInfoBufferOffset && ReadU64(r, 48) == c.version
  {
    var r := EncodeChallenge(c);
    var p1 := LE64(c.signature);
    var p2 := p1 + LE32(c.messageType);
    var p3 := p2 + LE16(c.targetNameLen);
    var p4 := p3 + LE16(c.targetNameMaxLen);
    var p5 := p4 + LE32(c.targetNameBufferOffset);
    var p6 := p5 + LE32(c.negotiateFlags);
    var p7 := p6 + LE64(c.serverChallenge);
    var p8 := p7 + LE64(c.reserved);
    var p9 := p8 + LE16(c.targetInfoLen);
    var p10 := p9 + LE16(c.targetInfoMaxLen);
    var p11 := p10 + LE32(c.targetInfoBufferOffset);
    var p12 := p11 + LE64(c.version);
    assert r == p12 + c.targetName + c.targetInfo;
    assert r[..|p12|] == p12;
    Field64(r, p11, c.version);
    Field32(r, p10, c.targetInfoBufferOffset);
    Field16(r, p9, c.targetInfoMaxLen);
    Field16(r, p8, c.targetInfoLen);
    Field64(r, p7, c.reserved);
    Field64(r, p6, c.serverChallenge);
    Field32(r, p5, c.negotiateFlags);
    Field32(r, p4, c.targetNameBufferOffset);
    Field16(r, p3, c.targetNameMaxLen);
    Field16(r, p2, c.targetNameLen);
    Field32(r, p1, c.messageType);
    ReadAt64(r, [], c.signature);
  }

  // ---------------------------------------------------------------------
  // AUTHENTICATE_MESSAGE (section 2.2.1.3 of MS-NLMP)

  datatype AuthenticateMessage = AuthenticateMessage(
    signature: u64,
    messageType: u32,
    lmChallengeResponse: Fields,
    ntChallengeResponse: Fields,
    domainName: Fields,
    userName: Fields,
    workstationName: Fields,
    encryptedRandomSessionKey: Fields,
    negotiateFlags: u32,
    version: u64,
    mic: Bytes)

  /** Signature, message type, six descriptors, flags, version and MIC. */
  const AuthenticateFixedSize: nat := 8 + 4 + 8 + 8 + 8 + 8 + 8 + 8 + 4 + 8 + 16

  /** The version field holds `UInt64(0x000a02000000000f).bigEndian`. */
  const AuthenticateVersion: u64 := BigEndian64(0x000a_0200_0000_000f)

  /** Version 10.0 build 0x0002... as it appears on the wire. */
  const VersionBytes: Bytes := [0x00, 0x0A, 0x02, 0x00, 0x00, 0x00, 0x00, 0x0F]

  /** The version field as `version` appends it. */
  lemma VersionOnWire()
    ensures LE64(AuthenticateVersion) == VersionBytes
  {
    var x: u64 := 0x000a_0200_0000_000f;
    var lo, hi := 0x0000_000f, 0x000a_0200;
    assert x % 0x1_0000_0000 == lo && x / 0x1_0000_0000 == hi;
    assert LE32(lo) == [0x0F, 0x00, 0x00, 0x00];
    assert LE32(hi) == [0x00, 0x02, 0x0A, 0x00] by {
      assert hi % 0x1_0000 == 0x0200 && hi / 0x1_0000 == 0x000a;
    }
    assert LE64(x) == [0x0F, 0x00, 0x00, 0x00] + [0x00, 0x02, 0x0A, 0x00];
  }

  /** The six payload descriptors in wire order. */
  function Payloads(m: AuthenticateMessage): seq<Fields> {
    [m.lmChallengeResponse, m.ntChallengeResponse, m.domainName,
     m.userName, m.workstationName, m.encryptedRandomSessionKey]
  }

  function NewAuthenticate(
    text: TextCodec,
    ntChallengeResponse: Bytes,
    domainName: Option<string> := None,
    userName: Option<string> := None,
    workstationName: Option<string> := None,
    encryptedRandomSessionKey: Option<Bytes> := None,
    mic: Bytes := []): (m: AuthenticateMessage)
    requires |ntChallengeResponse| < 0x1_0000
    requires |text.data(domainName.GetOr(""))| < 0x1_0000
    requires |text.data(userName.GetOr(""))| < 0x1_0000
    requires |text.data(workstationName.GetOr(""))| < 0x1_0000
    requires |encryptedRandomSessionKey.GetOr([])| < 0x1_0000
    ensures Chained(Payloads(m), AuthenticateFixedSize)
    ensures m.lmChallengeResponse.value == Zeros(24)
    ensures m.ntChallengeResponse.value == ntChallengeResponse
    ensures m.domainName.value == text.data(domainName.GetOr(""))
    ensures m.userName.value == text.data(userName.GetOr(""))
    ensures m.workstationName.value == text.data(workstationName.GetOr(""))
    ensures m.encryptedRandomSessionKey.value == encryptedRandomSessionKey.GetOr([])
    ensures m.signature == NtlmSignature && m.messageType == 3
    ensures m.negotiateFlags == DefaultFlags() && m.version == AuthenticateVersion
    ensures |mic| == 0 ==> m.mic == Zeros(16)
    ensures |mic| != 0 ==> m.mic == mic
  {
    var lm := NewFields(Zeros(24), AuthenticateFixedSize);
    var nt := NewFields(ntChallengeResponse, lm.bufferOffset + lm.len);
    var domain := NewTextFields(text, domainName, nt.bufferOffset + nt.len);
    var user := NewTextFields(text, userName, domain.bufferOffset + domain.len);
    var workstation := NewTextFields(text, workstationName, user.bufferOffset + user.len);
    var key := NewFields(encryptedRandomSessionKey.GetOr([]), workstation.bufferOffset + workstation.len);
    var m := AuthenticateMessage(
      NtlmSignature, 0x0000_0003, lm, nt, domain, user, workstation, key,
      DefaultFlags(), AuthenticateVersion,
      if |mic| == 0 then Zeros(16) else mic);
    m
  }

  /** `AuthenticateMessage.encoded()`: the fixed part, then every payload in
      descriptor order. */
  function EncodeAuthenticate(m: AuthenticateMessage): (r: Bytes)
    ensures |r| == 72 + |m.mic| + |Flatten(Values(Payloads(m)))|
    ensures |r| == 72 + |m.mic| + TotalLength(Values(Payloads(m)))
  {
    FlattenLength(Values(Payloads(m)));
    FlattenUniform(Descriptors(Payloads(m)), 8, 6);
    assert Descriptors(Payloads(m))[..6] == Descriptors(Payloads(m));
    LE64(BigEndian64(m.signature)) + LE32(m.messageType)
      + Flatten(Descriptors(Payloads(m)))
      + LE32(m.negotiateFlags) + LE64(m.version) + m.mic
      + Flatten(Values(Payloads(m)))
  }

  /** The head of an AUTHENTICATE message before its descriptors. */
  function AuthenticateHead(m: AuthenticateMessage): (r: Bytes)
    ensures |r| == 12
  {
    LE64(BigEndian64(m.signature)) + LE32(m.messageType)
  }

  /** The part between the descriptors and the payloads. */
  function AuthenticateMid(m: AuthenticateMessage): (r: Bytes)
    ensures |r| == 12 + |m.mic|
  {
    LE32(m.negotiateFlags) + LE64(m.version) + m.mic
  }

  lemma AuthenticateParts(m: AuthenticateMessage)
    ensures EncodeAuthenticate(m) ==
      AuthenticateHead(m) + Flatten(Descriptors(Payloads(m))) + AuthenticateMid(m) + Flatten(Values(Payloads(m)))
    ensures |Flatten(Descriptors(Payloads(m)))| == 48
  {
    FlattenUniform(Descriptors(Payloads(m)), 8, 6);
    assert Descriptors(Payloads(m))[..6] == Descriptors(Payloads(m));
  }

  /** The wire layout of a chained AUTHENTICATE message with a 16-byte MIC:
      descriptors at 12 + 8k, flags at 60, version at 64, MIC at [72, 88),
      and each descriptor leading to its own payload. */
  lemma AuthenticateLayout(m: AuthenticateMessage)
    requires Chained(Payloads(m), AuthenticateFixedSize)
    requires |m.mic| == 16
    ensures var r := EncodeAuthenticate(m);
      && |r| == AuthenticateFixedSize + |Flatten(Values(Payloads(m)))|
      && r[..8] == LE64(BigEndian64(m.signature))
      && ReadU32(r, 8) == m.messageType
      && ReadU32(r, 60) == m.negotiateFlags
      && r[64..72] == LE64(m.version)
      && r[72..88] == m.mic
      && (forall k | 0 <= k < 6 ::
            r[12 + 8 * k..20 + 8 * k] == EncodeFields(Payloads(m)[k])
            && PayloadAt(r, 12 + 8 * k) == Some(Payloads(m)[k].value))
  {
    var r := EncodeAuthenticate(m);
    var fs := Payloads(m);
    var head, mid := AuthenticateHead(m), AuthenticateMid(m);
    AuthenticateParts(m);
    forall k | 0 <= k < 6
      ensures r[12 + 8 * k..20 + 8 * k] == EncodeFields(fs[k])
      ensures PayloadAt(r, 12 + 8 * k) == Some(fs[k].value)
    {
      PayloadsAddressable(head, fs, mid, k);
    }
    var p1 := LE64(BigEndian64(m.signature));
    var p2 := p1 + LE32(m.messageType);
    var p3 := p2 + Flatten(Descriptors(fs));
    var p4 := p3 + LE32(m.negotiateFlags);
    var p5 := p4 + LE64(m.version);
    var p6 := p5 + m.mic;
    assert r == p6 + Flatten(Values(fs));
    assert r[..|p6|] == p6;
    assert r[72..88] == m.mic;
    PrefixShrink(r, p5, m.mic);
    assert r[64..72] == LE64(m.version);
    PrefixShrink(r, p4, LE64(m.version));
    Field32(r, p3, m.negotiateFlags);
    PrefixShrink(r, p2, Flatten(Descriptors(fs)));
    Field32(r, p1, m.messageType);
  }

  /** The payload each of the six descriptors of a chained message leads to. */
  lemma AuthenticatePayloads(m: AuthenticateMessage)
    requires Chained(Payloads(m), AuthenticateFixedSize)
    requires |m.mic| == 16
    ensures var r := EncodeAuthenticate(m);
      && |r| >= AuthenticateFixedSize
      && PayloadAt(r, 12) == Some(m.lmChallengeResponse.value)
      && PayloadAt(r, 20) == Some(m.ntChallengeResponse.value)
      && PayloadAt(r, 28) == Some(m.domainName.value)
      && PayloadAt(r, 36) == Some(m.userName.value)
      && PayloadAt(r, 44) == Some(m.workstationName.value)
      && PayloadAt(r, 52) == Some(m.encryptedRandomSessionKey.value)
  {
    var r := EncodeAuthenticate(m);
    var fs, head, mid := Payloads(m), AuthenticateHead(m), AuthenticateMid(m);
    AuthenticateParts(m);
    PayloadsAddressable(head, fs, mid, 0);
    PayloadsAddressable(head, fs, mid, 1);
    PayloadsAddressable(head, fs, mid, 2);
    PayloadsAddressable(head, fs, mid, 3);
    PayloadsAddressable(head, fs, mid, 4);
    PayloadsAddressable(head, fs, mid, 5);
  }

  /** Replacing the MIC of a message changes bytes [72, 88) and nothing else. */
  lemma MicOnlyDiffers(m: AuthenticateMessage, mic: Bytes)
    requires |m.mic| == 16 && |mic| == 16
    ensures var a, b := EncodeAuthenticate(m), EncodeAuthenticate(m.(mic := mic));
      && |a| == |b|
      && a[..72] == b[..72]
      && a[88..] == b[88..]
      && b[72..88] == mic
  {
    var m' := m.(mic := mic);
    AuthenticateParts(m);
    AuthenticateParts(m');
    var pre := AuthenticateHead(m) + Flatten(Descriptors(Payloads(m))) + LE32(m.negotiateFlags) + LE64(m.version);
    assert |pre| == 72;
    assert EncodeAuthenticate(m) == pre + m.mic + Flatten(Values(Payloads(m)));
    assert EncodeAuthenticate(m') == pre + mic + Flatten(Values(Payloads(m)));
  }
}

=== FILE: ntlm_auth.dfy ===
/** The client side of NTLMv2 authentication (section 3.3.2 of MS-NLMP) as
    `ChallengeMessage.ntowfv2` and `ChallengeMessage.authenticateMessage`
    perform it: the response key, the NTLMv2 response, the key exchange and
    the message integrity code (MIC). */
module NtlmAuth {
  import opened Bytes
  import opened Wrappers
  import opened Platform
  import opened Ntlm
  import opened NtlmV2

  /** NTOWFv2: HMAC-MD5 keyed with the MD4 hash of the UTF-16LE password,
      over the UTF-16LE text of the upper-cased user name followed by the
      domain, whose case is kept. */
  function Ntowfv2(crypto: Crypto, text: TextCodec, username: string, password: string, domain: string): (key: Digest)
    ensures text.Valid() ==>
      key == crypto.hmacMd5(NtHash(crypto, text, password),
        text.utf16le(text.uppercased(username)) + text.utf16le(domain))
  {
    crypto.hmacMd5(crypto.md4(text.utf16le(password)), text.utf16le(text.uppercased(username) + domain))
  }

  /** The NT hash: MD4 of the UTF-16LE password. */
  function NtHash(crypto: Crypto, text: TextCodec, password: string): Digest {
    crypto.md4(text.utf16le(password))
  }

  /** User names that upper-case alike give the same response key. */
  lemma Ntowfv2IgnoresUserCase(
    crypto: Crypto, text: TextCodec, user1: string, user2: string, password: string, domain: string)
    requires text.uppercased(user1) == text.uppercased(user2)
    ensures Ntowfv2(crypto, text, user1, password, domain) == Ntowfv2(crypto, text, user2, password, domain)
  {
  }

  /** Passwords enter the key only through the MD4 hash of their UTF-16LE text. */
  lemma Ntowfv2DependsOnPasswordHash(
    crypto: Crypto, text: TextCodec, username: string, password1: string, password2: string, domain: string)
    requires crypto.md4(text.utf16le(password1)) == crypto.md4(text.utf16le(password2))
    ensures Ntowfv2(crypto, text, username, password1, domain) == Ntowfv2(crypto, text, username, password2, domain)
  {
  }

  // ---------------------------------------------------------------------
  // What a server checks (section 3.2.5.1.2 of MS-NLMP), the reference the
  // client's message is proved against.

  /** The first 16 bytes of an NTLMv2 response are the HMAC, under the
      response key, of the server challenge followed by the rest of it. */
  predicate NtProofVerifies(crypto: Crypto, key: Bytes, serverChallenge: Bytes, nt: Bytes) {
    |nt| >= 16 && nt[..16] == crypto.hmacMd5(key, serverChallenge + nt[16..])
  }

  /** The MIC field of an encoded AUTHENTICATE message is the HMAC, under the
      exported session key, of the bytes that preceded the message followed by
      the message itself with its MIC zeroed. */
  predicate MicVerifies(crypto: Crypto, exportedKey: Bytes, preceding: Bytes, auth: Bytes) {
    |auth| >= AuthenticateFixedSize
    && auth[72..88] == crypto.hmacMd5(exportedKey, preceding + (auth[..72] + Zeros(16) + auth[88..]))
  }

  /** A server that knows the response key and its own challenge accepts the
      message: the NT response proves the key, the session base key derived
      from it decrypts the exchanged key, and that key verifies the MIC. */
  predicate ServerAccepts(crypto: Crypto, key: Bytes, serverChallenge: Bytes, preceding: Bytes, auth: Bytes) {
    && |auth| >= AuthenticateFixedSize
    && PayloadAt(auth, 20).Some? && PayloadAt(auth, 52).Some?
    && var nt := PayloadAt(auth, 20).value;
       && NtProofVerifies(crypto, key, serverChallenge, nt)
       && var exportedKey := crypto.rc4(crypto.hmacMd5(key, nt[..16]), PayloadAt(auth, 52).value);
          MicVerifies(crypto, exportedKey, preceding, auth)
  }

  // ---------------------------------------------------------------------
  // The client's computation

  /** Everything `authenticateMessage` takes from outside the challenge: the
      credentials, the security buffer of the SMB2 NEGOTIATE response, the
      NEGOTIATE message sent before, and the random and clock values it
      draws. */
  datatype Inputs = Inputs(
    username: Option<string>,
    password: Option<string>,
    domain: Option<string>,
    securityBuffer: Bytes,
    negotiate: NegotiateMessage,
    clientChallenge: Bytes,
    timeStamp: u64,
    randomSessionKey: Bytes)

  /** The values `authenticateMessage` can build its messages from without
      trapping: the 8 and 16 random bytes it draws, and payloads short enough
      for their 16-bit lengths. */
  predicate Buildable(text: TextCodec, c: ChallengeMessage, args: Inputs) {
    && |args.clientChallenge| == 8
    && |args.randomSessionKey| == 16
    && 16 + 36 + |c.targetInfo| < 0x1_0000
    && |text.data(args.username.GetOr(""))| < 0x1_0000
  }

  function ResponseKey(crypto: Crypto, text: TextCodec, args: Inputs): Digest {
    Ntowfv2(crypto, text, args.username.GetOr(""), args.password.GetOr(""), args.domain.GetOr(""))
  }

  /** A missing user name, password or domain gives the same key as the
      empty string. */
  lemma ResponseKeyMissingIsEmpty(crypto: Crypto, text: TextCodec, args: Inputs)
    ensures ResponseKey(crypto, text, args.(username := None)) == ResponseKey(crypto, text, args.(username := Some("")))
    ensures ResponseKey(crypto, text, args.(password := None)) == ResponseKey(crypto, text, args.(password := Some("")))
    ensures ResponseKey(crypto, text, args.(domain := None)) == ResponseKey(crypto, text, args.(domain := Some("")))
  {
  }

  /** The NTLMv2 response: the proof followed by the client-challenge blob,
      which carries the server's target information. */
  function NtChallengeResponse(crypto: Crypto, text: TextCodec, c: ChallengeMessage, args: Inputs): (nt: Bytes)
    requires |args.clientChallenge| == 8
    ensures |nt| == 16 + 36 + |c.targetInfo|
    ensures NtProofVerifies(crypto, ResponseKey(crypto, text, args), LE64(c.serverChallenge), nt)
    ensures nt[16..] == EncodeClientChallenge(NewClientChallenge(args.clientChallenge, c.targetInfo, args.timeStamp))
  {
    var blob := EncodeClientChallenge(NewClientChallenge(args.clientChallenge, c.targetInfo, args.timeStamp));
    var ntProof := crypto.hmacMd5(ResponseKey(crypto, text, args), LE64(c.serverChallenge) + blob);
    assert (ntProof + blob)[..16] == ntProof && (ntProof + blob)[16..] == blob;
    ntProof + blob
  }

  /** The random session key encrypted under the session base key. */
  function EncryptedSessionKey(crypto: Crypto, text: TextCodec, c: ChallengeMessage, args: Inputs): (k: Bytes)
    requires |args.clientChallenge| == 8
    requires crypto.Valid()
    ensures |k| == |args.randomSessionKey|
    ensures var nt := NtChallengeResponse(crypto, text, c, args);
      crypto.rc4(crypto.hmacMd5(ResponseKey(crypto, text, args), nt[..16]), k) == args.randomSessionKey
  {
    var nt := NtChallengeResponse(crypto, text, c, args);
    crypto.rc4(crypto.hmacMd5(ResponseKey(crypto, text, args), nt[..16]), args.randomSessionKey)
  }

  /** The message the MIC is computed over: no domain, no workstation, the
      MIC field zero. */
  function DraftAuthenticate(crypto: Crypto, text: TextCodec, c: ChallengeMessage, args: Inputs): (m: AuthenticateMessage)
    requires crypto.Valid() && text.Valid() && Buildable(text, c, args)
    ensures Chained(Payloads(m), AuthenticateFixedSize)
    ensures m.mic == Zeros(16)
    ensures m.domainName.value == [] && m.workstationName.value == []
  {
    NewAuthenticate(text, NtChallengeResponse(crypto, text, c, args),
      userName := args.username,
      encryptedRandomSessionKey := Some(EncryptedSessionKey(crypto, text, c, args)))
  }

  /** `authenticateMessage`: the message with a workstation name of "" and the
      MIC over the security buffer, the NEGOTIATE message and the draft. The
      domain takes part in the response key but is never sent. */
  function AuthenticateFor(crypto: Crypto, text: TextCodec, c: ChallengeMessage, args: Inputs): (m: AuthenticateMessage)
    requires crypto.Valid() && text.Valid() && Buildable(text, c, args)
    ensures Chained(Payloads(m), AuthenticateFixedSize)
    ensures m.domainName.value == [] && m.workstationName.value == []
    ensures m.userName.value == text.data(args.username.GetOr(""))
    ensures m.ntChallengeResponse.value == NtChallengeResponse(crypto, text, c, args)
    ensures |m.encryptedRandomSessionKey.value| == 16
    ensures m.signature == NtlmSignature && m.messageType == 3
    ensures m.negotiateFlags == DefaultFlags() && m.version == AuthenticateVersion
    ensures m == DraftAuthenticate(crypto, text, c, args).(mic := m.mic)
    ensures m.mic == crypto.hmacMd5(args.randomSessionKey,
      args.securityBuffer + EncodeNegotiate(args.negotiate) + EncodeAuthenticate(DraftAuthenticate(crypto, text, c, args)))
  {
    var draft := DraftAuthenticate(crypto, text, c, args);
    var mic := crypto.hmacMd5(args.randomSessionKey,
      args.securityBuffer + EncodeNegotiate(args.negotiate) + EncodeAuthenticate(draft));
    NewAuthenticate(text, NtChallengeResponse(crypto, text, c, args),
      userName := args.username,
      workstationName := Some(""),
      encryptedRandomSessionKey := Some(EncryptedSessionKey(crypto, text, c, args)),
      mic := mic)
  }

  /** Replacing the zero MIC of a chained draft by the HMAC of the preceding
      bytes and the encoded draft gives a message whose MIC verifies. */
  lemma MicOverDraftVerifies(crypto: Crypto, key: Bytes, preceding: Bytes, draft: AuthenticateMessage, mic: Digest)
    requires Chained(Payloads(draft), AuthenticateFixedSize)
    requires draft.mic == Zeros(16)
    requires mic == crypto.hmacMd5(key, preceding + EncodeAuthenticate(draft))
    ensures MicVerifies(crypto, key, preceding, EncodeAuthenticate(draft.(mic := mic)))
  {
    var a, b := EncodeAuthenticate(draft), EncodeAuthenticate(draft.(mic := mic));
    AuthenticateLayout(draft);
    MicOnlyDiffers(draft, mic);
    assert a == a[..72] + a[72..88] + a[88..];
  }

  /** A chained message whose NT response proves the key and whose exchanged
      key decrypts to the MIC key is accepted. */
  lemma AcceptedWhen(
    crypto: Crypto, key: Bytes, serverChallenge: Bytes, preceding: Bytes,
    m: AuthenticateMessage, exportedKey: Bytes)
    requires Chained(Payloads(m), AuthenticateFixedSize) && |m.mic| == 16
    requires NtProofVerifies(crypto, key, serverChallenge, m.ntChallengeResponse.value)
    requires crypto.rc4(crypto.hmacMd5(key, m.ntChallengeResponse.value[..16]), m.encryptedRandomSessionKey.value)
      == exportedKey
    requires MicVerifies(crypto, exportedKey, preceding, EncodeAuthenticate(m))
    ensures ServerAccepts(crypto, key, serverChallenge, preceding, EncodeAuthenticate(m))
  {
    AuthenticatePayloads(m);
  }

  /** End to end: from the bytes of a CHALLENGE message, the client's encoded
      AUTHENTICATE message is accepted by a server that holds the same
      response key and challenge and saw the same preceding bytes. */
  lemma AuthenticateAccepted(crypto: Crypto, text: TextCodec, data: Bytes, args: Inputs)
    requires crypto.Valid() && text.Valid()
    requires DecodeChallenge(data).Some?
    requires Buildable(text, DecodeChallenge(data).value, args)
    ensures ServerAccepts(crypto, ResponseKey(crypto, text, args), data[24..32],
      args.securityBuffer + EncodeNegotiate(args.negotiate),
      EncodeAuthenticate(AuthenticateFor(crypto, text, DecodeChallenge(data).value, args)))
  {
    var c := DecodeChallenge(data).value;
    var m := AuthenticateFor(crypto, text, c, args);
    var preceding := args.securityBuffer + EncodeNegotiate(args.negotiate);
    MicOverDraftVerifies(crypto, args.randomSessionKey, preceding, DraftAuthenticate(crypto, text, c, args), m.mic);
    AcceptedWhen(crypto, ResponseKey(crypto, text, args), data[24..32], preceding, m, args.randomSessionKey);
  }

  /** What the encoded message carries: 24 zero bytes for the LM response, an
      NTLMv2 response holding the server's target information, no domain, the
      user name, an empty workstation name and a 16-byte exchanged key. */
  lemma AuthenticateContents(crypto: Crypto, text: TextCodec, c: ChallengeMessage, args: Inputs)
    requires crypto.Valid() && text.Valid() && Buildable(text, c, args)
    ensures var auth := EncodeAuthenticate(AuthenticateFor(crypto, text, c, args));
      && |auth| >= AuthenticateFixedSize
      && PayloadAt(auth, 12) == Some(Zeros(24))
      && PayloadAt(auth, 20).Some?
      && |PayloadAt(auth, 20).value| == 52 + |c.targetInfo|
      && PayloadAt(auth, 20).value[44..44 + |c.targetInfo|] == c.targetInfo
      && PayloadAt(auth, 28) == Some([])
      && PayloadAt(auth, 36) == Some(text.data(args.username.GetOr("")))
      && PayloadAt(auth, 44) == Some([])
      && PayloadAt(auth, 52).Some? && |PayloadAt(auth, 52).value| == 16
  {
    var m := AuthenticateFor(crypto, text, c, args);
    var nt := m.ntChallengeResponse.value;
    AuthenticatePayloads(m);
    ClientChallengeLayout(args.clientChallenge, c.targetInfo, args.timeStamp);
    assert nt[44..44 + |c.targetInfo|] == nt[16..][28..28 + |c.targetInfo|];
  }

  /** The fixed fields of the encoded message: 'NTLMSSP\0', type 3, the
      default flag word and the version bytes 00 0A 02 00 00 00 00 0F. */
  lemma AuthenticateWireHeader(crypto: Crypto, text: TextCodec, c: ChallengeMessage, args: Inputs)
    requires crypto.Valid() && text.Valid() && Buildable(text, c, args)
    ensures var r := EncodeAuthenticate(AuthenticateFor(crypto, text, c, args));
      && |r| >= AuthenticateFixedSize
      && r[..8] == SignatureBytes
      && ReadU32(r, 8) == 3
      && ReadU32(r, 60) == 0xE28A_8235
      && r[64..72] == VersionBytes
  {
    var m := AuthenticateFor(crypto, text, c, args);
    AuthenticateLayout(m);
    SignatureOnWire();
    VersionOnWire();
  }
}

=== FILE: ntlmv2.dfy ===
/** The NTLMv2 client-challenge blob (NTLMv2_CLIENT_CHALLENGE, section
    2.2.2.7 of MS-NLMP) and attribute/value pairs (AV_PAIR, section 2.2.2.1). */
module NtlmV2 {
  import opened Bytes
  import opened Wrappers

  // ---------------------------------------------------------------------
  // NTLMv2_CLIENT_CHALLENGE

  datatype ClientChallenge = ClientChallenge(
    respType: byte,
    hiRespType: byte,
    reserved1: u16,
    reserved2: u32,
    timeStamp: u64,
    challengeFromClient: Bytes,
    reserved3: u32,
    avPairs: Bytes)

  /** The current time (a FILETIME tick count) is a parameter. */
  function NewClientChallenge(challengeFromClient: Bytes, avPairs: Bytes, timeStamp: u64): (c: ClientChallenge)
    ensures c.respType == 1 && c.hiRespType == 1
    ensures c.reserved1 == 0 && c.reserved2 == 0 && c.reserved3 == 0
    ensures c.timeStamp == timeStamp && c.challengeFromClient == challengeFromClient && c.avPairs == avPairs
  {
    ClientChallenge(0x01, 0x01, 0, 0, timeStamp, challengeFromClient, 0, avPairs)
  }

  function EncodeClientChallenge(c: ClientChallenge): (r: Bytes)
    ensures |r| == 28 + |c.challengeFromClient| + |c.avPairs|
  {
    [c.respType] + [c.hiRespType] + LE16(c.reserved1) + LE32(c.reserved2)
      + LE64(c.timeStamp) + c.challengeFromClient + LE32(c.reserved3)
      + c.avPairs + Zeros(8)
  }

  /** The blob built for an 8-byte client challenge: version bytes 1 and 1, six
      zero bytes, the timestamp, the client challenge, four zero bytes, the
      server's target information verbatim, and eight zero bytes. */
  lemma ClientChallengeLayout(challengeFromClient: Bytes, avPairs: Bytes, timeStamp: u64)
    requires |challengeFromClient| == 8
    ensures var r := EncodeClientChallenge(NewClientChallenge(challengeFromClient, avPairs, timeStamp));
      && |r| == 36 + |avPairs|
      && r[0] == 0x01 && r[1] == 0x01
      && r[2..8] == Zeros(6)
      && ReadU64(r, 8) == timeStamp
      && r[16..24] == challengeFromClient
      && r[24..28] == Zeros(4)
      && r[28..28 + |avPairs|] == avPairs
      && r[28 + |avPairs|..] == Zeros(8)
  {
    var c := NewClientChallenge(challengeFromClient, avPairs, timeStamp);
    var r := EncodeClientChallenge(c);
    var head := [c.respType] + [c.hiRespType] + LE16(0) + LE32(0);
    assert r == head + LE64(timeStamp) + (challengeFromClient + LE32(0) + avPairs + Zeros(8));
    ReadBack64(head, timeStamp, challengeFromClient + LE32(0) + avPairs + Zeros(8));
    assert r[2..8] == LE16(0) + LE32(0);
    assert r[24..28] == LE32(0);
  }

  // ---------------------------------------------------------------------
  // AV_PAIR

  datatype AvId =
    | Eol
    | NbComputerName
    | NbDomainName
    | DnsComputerName
    | DnsDomainName
    | DnsTreeName
    | Flags
    | Timestamp
    | SingleHost
    | TargetName
    | ChannelBindings
  {
    function RawValue(): (raw: u16)
      ensures raw <= 0x000A
    {
      match this
      case Eol => 0x0000
      case NbComputerName => 0x0001
      case NbDomainName => 0x0002
      case DnsComputerName => 0x0003
      case DnsDomainName => 0x0004
      case DnsTreeName => 0x0005
      case Flags => 0x0006
      case Timestamp => 0x0007
      case SingleHost => 0x0008
      case TargetName => 0x0009
      case ChannelBindings => 0x000A
    }
  }

  /** Swift's failable `AVId(rawValue:)`. */
  function AvIdFromRaw(raw: u16): (r: Option<AvId>)
    ensures r.Some? <==> raw <= 0x000A
    ensures r.Some? ==> r.value.RawValue() == raw
  {
    match raw
    case 0x0000 => Some(Eol)
    case 0x0001 => Some(NbComputerName)
    case 0x0002 => Some(NbDomainName)
    case 0x0003 => Some(DnsComputerName)
    case 0x0004 => Some(DnsDomainName)
    case 0x0005 => Some(DnsTreeName)
    case 0x0006 => Some(Flags)
    case 0x0007 => Some(Timestamp)
    case 0x0008 => Some(SingleHost)
    case 0x0009 => Some(TargetName)
    case 0x000A => Some(ChannelBindings)
    case _ => None
  }

  lemma AvIdRoundTrip(id: AvId)
    ensures AvIdFromRaw(id.RawValue()) == Some(id)
  {
  }

  datatype AvPair = AvPair(avId: AvId, avLen: u16, avValue: Bytes)

  /** The length field agrees with the value. */
  predicate ValidAvPair(p: AvPair) {
    p.avLen == |p.avValue|
  }

  /** `UInt16(avValue.count)` traps on values of 64 KiB or more. */
  function NewAvPair(avId: AvId, avValue: Bytes): (p: AvPair)
    requires |avValue| < 0x1_0000
    ensures ValidAvPair(p)
    ensures p.avId == avId && p.avValue == avValue
  {
    AvPair(avId, |avValue|, avValue)
  }

  function EncodeAvPair(p: AvPair): (r: Bytes)
    ensures |r| == 4 + |p.avValue|
  {
    LE16(p.avId.RawValue()) + LE16(p.avLen) + p.avValue
  }

  /** `AVPair.init(data:)`: the force-unwrap of an unknown id and a read past
      the end of `data` are both decoding failures. Bytes after the value are
      ignored. */
  function DecodeAvPair(data: Bytes): (r: Option<AvPair>)
    ensures r.Some? <==>
      && |data| >= 4
      && ReadU16(data, 0) <= 0x000A
      && 4 + ReadU16(data, 2) <= |data|
    ensures r.Some? ==>
      && ValidAvPair(r.value)
      && r.value.avId.RawValue() == ReadU16(data, 0)
      && r.value.avValue == data[4..4 + ReadU16(data, 2)]
  {
    if |data| < 4 then None
    else
      var id :- AvIdFromRaw(ReadU16(data, 0));
      var len := ReadU16(data, 2);
      if 4 + len <= |data| then Some(AvPair(id, len, data[4..4 + len])) else None
  }

  /** Decoding an encoded pair gives the pair back, whatever follows it. */
  lemma AvPairRoundTrip(p: AvPair, rest: Bytes)
    requires ValidAvPair(p)
    ensures DecodeAvPair(EncodeAvPair(p) + rest) == Some(p)
  {
    var data := EncodeAvPair(p) + rest;
    ReadBack16([], p.avId.RawValue(), LE16(p.avLen) + p.avValue + rest);
    assert data == [] + LE16(p.avId.RawValue()) + (LE16(p.avLen) + p.avValue + rest);
    ReadBack16(LE16(p.avId.RawValue()), p.avLen, p.avValue + rest);
    assert data == LE16(p.avId.RawValue()) + LE16(p.avLen) + (p.avValue + rest);
    AvIdRoundTrip(p.avId);
    assert data[4..4 + p.avLen] == p.avValue;
  }
}

=== FILE: platform.dfy ===
/** The collaborators the protocol code calls but does not implement: the
    CommonCrypto primitives and Foundation's string conversions. Each is a
    function-valued field, so the model constrains only what the codecs rely
    on (output lengths, the empty string) and nothing about how they compute. */
module Platform {
  import opened Bytes
  import opened Wrappers

  /** An MD4 or HMAC-MD5 output. */
  type Digest = s: Bytes | |s| == 16 witness [0, 0, 0, 0, 0, 0, 0, 0, 0, 0, 0, 0, 0, 0, 0, 0]

  /** `CC_MD4`, `Crypto.hmacMD5(key:data:)` and `Crypto.rc4(key:data:)`. */
  datatype Crypto = Crypto(
    md4: Bytes -> Digest,
    hmacMd5: (Bytes, Bytes) -> Digest,
    rc4: (Bytes, Bytes) -> Bytes)
  {
    /** RC4 is a stream cipher: the ciphertext is as long as the plaintext,
        and applying the same key stream twice gives the plaintext back. */
    ghost predicate Valid() {
      && (forall key: Bytes, data: Bytes :: |rc4(key, data)| == |data|)
      && (forall key: Bytes, data: Bytes :: rc4(key, rc4(key, data)) == data)
    }
  }

  /** Foundation's string conversions:
      `data` is the `Data + String` operator used by NTLM `Fields`,
      `utf16le` is `String.data(using: .utf16LittleEndian)` (never nil for a Swift string),
      `decodeUtf16le` is `String(data:encoding: .utf16LittleEndian)`,
      `hex` is `Data.hex`, `uppercased` is `String.uppercased()`. */
  datatype TextCodec = TextCodec(
    data: string -> Bytes,
    utf16le: string -> Bytes,
    decodeUtf16le: Bytes -> Option<string>,
    hex: Bytes -> string,
    uppercased: string -> string)
  {
    /** The empty string converts to no bytes at all, and UTF-16LE encodes a
        concatenation as the concatenation of the encodings (a Swift string is
        its sequence of Unicode scalars, each encoded on its own). */
    ghost predicate Valid() {
      && data("") == []
      && (forall a: string, b: string :: utf16le(a + b) == utf16le(a) + utf16le(b))
    }

    /** A name as the directory decoder shows it: the UTF-16LE text, or the
        hex rendering of the raw bytes when they are not valid UTF-16LE. */
    function Display(raw: Bytes): string
    {
      decodeUtf16le(raw).GetOr(hex(raw))
    }
  }
}

=== FILE: query_directory.dfy ===
/** SMB2 QUERY_DIRECTORY (sections 2.2.33 and 2.2.34 of MS-SMB2): the request
    encoder and the response decoder, which walks the chain of
    FILE_ID_BOTH_DIR_INFORMATION records (section 2.4.17 of MS-FSCC) linked
    by their NextEntryOffset fields. */
module QueryDirectory {
  import opened Bytes
  import opened Wrappers
  import opened Platform

  // ---------------------------------------------------------------------
  // Request

  /** The SMB2 header fields a request sets. */
  datatype Header = Header(
    creditCharge: u16,
    command: u16,
    creditRequest: u16,
    flags: u32,
    nextCommand: u32,
    messageId: u64,
    treeId: u32,
    sessionId: u64)

  /** The QUERY_DIRECTORY command code. */
  const QueryDirectoryCommand: u16 := 0x000E

  /** `Header.encoded()`, the 64-byte SMB2 header, is not part of this model:
      requests take it as a parameter. */
  type HeaderBytes = s: Bytes | |s| == 64 witness Zeros(64)

  datatype FileInformationClass =
    | FileDirectoryInformation
    | FileFullDirectoryInformation
    | FileIdFullDirectoryInformation
    | FileBothDirectoryInformation
    | FileIdBothDirectoryInformation
    | FileNamesInformation
    | FileIdExtdDirectoryInformation
    | FileInformationClassReserved
  {
    function RawValue(): byte {
      match this
      case FileDirectoryInformation => 0x01
      case FileFullDirectoryInformation => 0x02
      case FileIdFullDirectoryInformation => 0x26
      case FileBothDirectoryInformation => 0x03
      case FileIdBothDirectoryInformation => 0x25
      case FileNamesInformation => 0x0C
      case FileIdExtdDirectoryInformation => 0x3C
      case FileInformationClassReserved => 0x64
    }
  }

  /** Distinct classes go on the wire as distinct bytes. */
  lemma RawValueInjective(a: FileInformationClass, b: FileInformationClass)
    requires a.RawValue() == b.RawValue()
    ensures a == b
  {
  }

  // The request's flags byte (an option set over its raw value).
  const RestartScans: byte := 0x01
  const ReturnSingleEntry: byte := 0x02
  const IndexSpecified: byte := 0x04
  const Reopen: byte := 0x10

  datatype Request = Request(
    header: Header,
    structureSize: u16,
    fileInformationClass: FileInformationClass,
    flags: byte,
    fileIndex: u32,
    fileId: Bytes,
    fileNameOffset: u16,
    fileNameLength: u16,
    outputBufferLength: u32,
    buffer: Bytes)

  /** `Request.init`. The name's length is truncated to 16 bits; the buffer
      holds the whole UTF-16LE name and a two-byte terminator. */
  function NewRequest(
    text: TextCodec,
    messageId: u64,
    treeId: u32,
    sessionId: u64,
    fileInformationClass: FileInformationClass,
    fileId: Bytes,
    fileName: string,
    headerFlags: u32 := 0,
    flags: byte := RestartScans): (r: Request)
    ensures r.header.creditCharge == 1 && r.header.creditRequest == 64
    ensures r.header.command == QueryDirectoryCommand && r.header.nextCommand == 0
    ensures r.header.messageId == messageId && r.header.treeId == treeId && r.header.sessionId == sessionId
    ensures r.structureSize == 33 && r.fileIndex == 0
    ensures r.fileNameOffset == 96 && r.outputBufferLength == 0x1_0000
    ensures r.header.flags == headerFlags
    ensures r.fileInformationClass == fileInformationClass && r.flags == flags && r.fileId == fileId
    ensures r.fileNameLength == |text.utf16le(fileName)| % 0x1_0000
    ensures r.buffer == text.utf16le(fileName) + [0, 0]
  {
    var header := Header(1, QueryDirectoryCommand, 64, headerFlags, 0, messageId, treeId, sessionId);
    var nameData := text.utf16le(fileName);
    Request(header, 33, fileInformationClass, flags, 0, fileId, 96,
      |nameData| % 0x1_0000, 0x0001_0000, nameData + Zeros(2))
  }

  /** `Request.encoded()`: the header, the 32-byte fixed body, the buffer. */
  function EncodeRequest(encodeHeader: Header -> HeaderBytes, q: Request): (r: Bytes)
    ensures |r| == 72 + |q.fileId| + 8 + |q.buffer|
  {
    encodeHeader(q.header) + LE16(q.structureSize) + [q.fileInformationClass.RawValue()] + [q.flags]
      + LE32(q.fileIndex) + q.fileId + LE16(q.fileNameOffset) + LE16(q.fileNameLength)
      + LE32(q.outputBufferLength) + q.buffer
  }

  /** With a 16-byte file id, the fixed body fills bytes [64, 96) and the
      name starts at byte 96, the offset the request announces; a name shorter
      than 64 KiB is found exactly where its offset and length say. */
  lemma RequestLayout(
    encodeHeader: Header -> HeaderBytes, text: TextCodec,
    messageId: u64, treeId: u32, sessionId: u64,
    fileInformationClass: FileInformationClass, fileId: Bytes, fileName: string,
    headerFlags: u32, flags: byte)
    requires |fileId| == 16
    ensures var q := NewRequest(text, messageId, treeId, sessionId, fileInformationClass, fileId, fileName, headerFlags, flags);
      var name := text.utf16le(fileName);
      var r := EncodeRequest(encodeHeader, q);
      && |r| == 98 + |name|
      && r[..64] == encodeHeader(q.header)
      && ReadU16(r, 64) == 33
      && r[66] == fileInformationClass.RawValue()
      && r[67] == flags
      && ReadU32(r, 68) == 0
      && r[72..88] == fileId
      && ReadU16(r, 88) == 96
      && ReadU16(r, 90) == |name| % 0x1_0000
      && ReadU32(r, 92) == 0x1_0000
      && r[96..96 + |name|] == name
      && r[96 + |name|..] == [0, 0]
      && (|name| < 0x1_0000 ==> r[ReadU16(r, 88)..ReadU16(r, 88) + ReadU16(r, 90)] == name)
  {
    var q := NewRequest(text, messageId, treeId, sessionId, fileInformationClass, fileId, fileName, headerFlags, flags);
    var name := text.utf16le(fileName);
    var r := EncodeRequest(encodeHeader, q);
    var p1 := encodeHeader(q.header);
    var p2 := p1 + LE16(33);
    var p3 := p2 + [fileInformationClass.RawValue()];
    var p4 := p3 + [flags];
    var p5 := p4 + LE32(0);
    var p6 := p5 + fileId;
    var p7 := p6 + LE16(96);
    var p8 := p7 + LE16(q.fileNameLength);
    var p9 := p8 + LE32(0x1_0000);
    assert r == p9 + (name + Zeros(2));
    assert r[..|p9|] == p9;
    Field32(r, p8, 0x1_0000);
    Field16(r, p7, q.fileNameLength);
    Field16(r, p6, 96);
    PrefixShrink(r, p5, fileId);
    Field32(r, p4, 0);
    PrefixShrink(r, p3, [flags]);
    PrefixShrink(r, p2, [fileInformationClass.RawValue()]);
    Field16(r, p1, 33);
    assert r[96..96 + |name|] == name;
    assert r[96 + |name|..] == Zeros(2);
  }

  // ---------------------------------------------------------------------
  // FILE_ID_BOTH_DIR_INFORMATION

  datatype FileIdBothDirectoryInformation = Entry(
    nextEntryOffset: u32,
    fileIndex: u32,
    creationTime: u64,
    lastAccessTime: u64,
    lastWriteTime: u64,
    changeTime: u64,
    endOfFile: u64,
    allocationSize: u64,
    fileAttributes: u32,
    fileNameLength: u32,
    eaSize: u32,
    shortNameLength: byte,
    reserved: byte,
    shortName: string,
    reserved2: u16,
    fileId: Bytes,
    fileName: string)

  /** The fixed part of a record, up to the file name. */
  const EntryFixedSize: nat := 104

  /** `FileIdBothDirectoryInformation.init(byteStream:)` reading from the start
      of `d`. The short name is the 24 bytes at 70 whatever ShortNameLength
      says; neither name can fail to decode, since undecodable bytes are shown
      in hex. A read past the end of `d` is a decoding failure. */
  function DecodeEntry(text: TextCodec, d: Bytes): (r: Option<FileIdBothDirectoryInformation>)
    ensures r.Some? <==> |d| >= EntryFixedSize && EntryFixedSize + ReadU32(d, 60) <= |d|
    ensures r.Some? ==>
      && r.value.nextEntryOffset == ReadU32(d, 0)
      && r.value.fileIndex == ReadU32(d, 4)
      && r.value.creationTime == ReadU64(d, 8) && r.value.lastAccessTime == ReadU64(d, 16)
      && r.value.lastWriteTime == ReadU64(d, 24) && r.value.changeTime == ReadU64(d, 32)
      && r.value.endOfFile == ReadU64(d, 40) && r.value.allocationSize == ReadU64(d, 48)
      && r.value.fileAttributes == ReadU32(d, 56)
      && r.value.fileNameLength == ReadU32(d, 60)
      && r.value.eaSize == ReadU32(d, 64)
      && r.value.shortNameLength == d[68] && r.value.reserved == d[69]
      && r.value.reserved2 == ReadU16(d, 94)
      && r.value.shortName == text.Display(d[70..94])
      && r.value.fileId == d[96..104]
      && r.value.fileName == text.Display(d[104..104 + ReadU32(d, 60)])
  {
    if |d| < EntryFixedSize then None
    else
      var nameLength := ReadU32(d, 60);
      if EntryFixedSize + nameLength > |d| then None
      else
        Some(Entry(
          ReadU32(d, 0), ReadU32(d, 4),
          ReadU64(d, 8), ReadU64(d, 16), ReadU64(d, 24), ReadU64(d, 32),
          ReadU64(d, 40), ReadU64(d, 48),
          ReadU32(d, 56), nameLength, ReadU32(d, 64),
          d[68], d[69],
          text.Display(d[70..94]),
          ReadU16(d, 94),
          d[96..104],
          text.Display(d[104..104 + nameLength])))
  }

  /** A record as a server writes it, names as raw UTF-16LE bytes: the
      reference encoding the decoder is checked against. */
  datatype RawEntry = RawEntry(
    nextEntryOffset: u32,
    fileIndex: u32,
    creationTime: u64,
    lastAccessTime: u64,
    lastWriteTime: u64,
    changeTime: u64,
    endOfFile: u64,
    allocationSize: u64,
    fileAttributes: u32,
    eaSize: u32,
    shortNameLength: byte,
    reserved: byte,
    shortNameBytes: Bytes,
    reserved2: u16,
    fileId: Bytes,
    fileNameBytes: Bytes)

  predicate ValidRawEntry(e: RawEntry) {
    |e.shortNameBytes| == 24 && |e.fileId| == 8 && |e.fileNameBytes| < 0x1_0000_0000
  }

  /** The numeric fields in front of the short name. */
  function EncodeEntryHead(e: RawEntry): (r: Bytes)
    requires ValidRawEntry(e)
    ensures |r| == 70
  {
    LE32(e.nextEntryOffset) + LE32(e.fileIndex)
      + LE64(e.creationTime) + LE64(e.lastAccessTime) + LE64(e.lastWriteTime) + LE64(e.changeTime)
      + LE64(e.endOfFile) + LE64(e.allocationSize)
      + LE32(e.fileAttributes) + LE32(|e.fileNameBytes|) + LE32(e.eaSize)
      + [e.shortNameLength] + [e.reserved]
  }

  function EncodeEntry(e: RawEntry): (r: Bytes)
    requires ValidRawEntry(e)
    ensures |r| == EntryFixedSize + |e.fileNameBytes|
  {
    EncodeEntryHead(e) + e.shortNameBytes + LE16(e.reserved2) + e.fileId + e.fileNameBytes
  }

  /** What the client shows of a raw record. */
  function Shown(text: TextCodec, e: RawEntry): FileIdBothDirectoryInformation
    requires ValidRawEntry(e)
  {
    Entry(
      e.nextEntryOffset, e.fileIndex,
      e.creationTime, e.lastAccessTime, e.lastWriteTime, e.changeTime,
      e.endOfFile, e.allocationSize,
      e.fileAttributes, |e.fileNameBytes|, e.eaSize,
      e.shortNameLength, e.reserved,
      text.Display(e.shortNameBytes),
      e.reserved2, e.fileId,
      text.Display(e.fileNameBytes))
  }

  /** Every numeric field of the head reads back from its position. */
  lemma EntryHeadFields(e: RawEntry)
    requires ValidRawEntry(e)
    ensures var h := EncodeEntryHead(e);
      && ReadU32(h, 0) == e.nextEntryOffset && ReadU32(h, 4) == e.fileIndex
      && ReadU64(h, 8) == e.creationTime && ReadU64(h, 16) == e.lastAccessTime
      && ReadU64(h, 24) == e.lastWriteTime && ReadU64(h, 32) == e.changeTime
      && ReadU64(h, 40) == e.endOfFile && ReadU64(h, 48) == e.allocationSize
      && ReadU32(h, 56) == e.fileAttributes && ReadU32(h, 60) == |e.fileNameBytes|
      && ReadU32(h, 64) == e.eaSize
      && h[68] == e.shortNameLength && h[69] == e.reserved
  {
    var h := EncodeEntryHead(e);
    var p1 := LE32(e.nextEntryOffset);
    var p2 := p1 + LE32(e.fileIndex);
    var p3 := p2 + LE64(e.creationTime);
    var p4 := p3 + LE64(e.lastAccessTime);
    var p5 := p4 + LE64(e.lastWriteTime);
    var p6 := p5 + LE64(e.changeTime);
    var p7 := p6 + LE64(e.endOfFile);
    var p8 := p7 + LE64(e.allocationSize);
    var p9 := p8 + LE32(e.fileAttributes);
    var p10 := p9 + LE32(|e.fileNameBytes|);
    var p11 := p10 + LE32(e.eaSize);
    assert h == p11 + [e.shortNameLength] + [e.reserved];
    assert h[..|p11|] == p11;
    Field32(h, p10, e.eaSize);
    Field32(h, p9, |e.fileNameBytes|);
    Field32(h, p8, e.fileAttributes);
    Field64(h, p7, e.allocationSize);
    Field64(h, p6, e.endOfFile);
    Field64(h, p5, e.changeTime);
    Field64(h, p4, e.lastWriteTime);
    Field64(h, p3, e.lastAccessTime);
    Field64(h, p2, e.creationTime);
    Field32(h, p1, e.fileIndex);
    ReadAt32(h, [], e.nextEntryOffset);
  }

  /** The head's fields read the same inside a longer record. */
  lemma EntryHeadWithin(e: RawEntry, d: Bytes)
    requires ValidRawEntry(e)
    requires |d| >= 70 && d[..70] == EncodeEntryHead(e)
    ensures ReadU32(d, 0) == e.nextEntryOffset && ReadU32(d, 4) == e.fileIndex
    ensures ReadU64(d, 8) == e.creationTime && ReadU64(d, 16) == e.lastAccessTime
    ensures ReadU64(d, 24) == e.lastWriteTime && ReadU64(d, 32) == e.changeTime
    ensures ReadU64(d, 40) == e.endOfFile && ReadU64(d, 48) == e.allocationSize
    ensures ReadU32(d, 56) == e.fileAttributes && ReadU32(d, 60) == |e.fileNameBytes|
    ensures ReadU32(d, 64) == e.eaSize
    ensures d[68] == e.shortNameLength && d[69] == e.reserved
  {
    var h := EncodeEntryHead(e);
    EntryHeadFields(e);
    PrefixRead32(d, h, 0);
    PrefixRead32(d, h, 4);
    PrefixRead64(d, h, 8);
    PrefixRead64(d, h, 16);
    PrefixRead64(d, h, 24);
    PrefixRead64(d, h, 32);
    PrefixRead64(d, h, 40);
    PrefixRead64(d, h, 48);
    PrefixRead32(d, h, 56);
    PrefixRead32(d, h, 60);
    PrefixRead32(d, h, 64);
    assert d[68] == h[68] && d[69] == h[69];
  }

  /** The parts of a record after its head, followed by whatever comes next. */
  lemma EntryTailFields(e: RawEntry, rest: Bytes)
    requires ValidRawEntry(e)
    ensures var t := e.shortNameBytes + (LE16(e.reserved2) + (e.fileId + (e.fileNameBytes + rest)));
      && |t| == 34 + |e.fileNameBytes| + |rest|
      && t[0..24] == e.shortNameBytes
      && ReadU16(t, 24) == e.reserved2
      && t[26..34] == e.fileId
      && t[34..34 + |e.fileNameBytes|] == e.fileNameBytes
  {
    var t3 := e.fileId + (e.fileNameBytes + rest);
    var t2 := LE16(e.reserved2) + t3;
    var t := e.shortNameBytes + t2;
    ReadBack16(e.shortNameBytes, e.reserved2, t3);
    assert t == e.shortNameBytes + LE16(e.reserved2) + t3;
    SliceLast(e.shortNameBytes, t2, 2, 10);
    SliceLast(LE16(e.reserved2), t3, 0, 8);
    SliceLast(e.shortNameBytes, t2, 2 + 8, 2 + 8 + |e.fileNameBytes|);
    SliceLast(LE16(e.reserved2), t3, 8, 8 + |e.fileNameBytes|);
    SliceLast(e.fileId, e.fileNameBytes + rest, 0, |e.fileNameBytes|);
  }

  /** Decoding an encoded record gives what the client shows of it, whatever
      follows the record. */
  lemma EntryRoundTrip(text: TextCodec, e: RawEntry, rest: Bytes)
    requires ValidRawEntry(e)
    ensures DecodeEntry(text, EncodeEntry(e) + rest) == Some(Shown(text, e))
  {
    var head := EncodeEntryHead(e);
    var t := e.shortNameBytes + (LE16(e.reserved2) + (e.fileId + (e.fileNameBytes + rest)));
    var d := EncodeEntry(e) + rest;
    assert d == head + t;
    assert d[..70] == head;
    EntryHeadWithin(e, d);
    EntryTailFields(e, rest);
    SliceLast(head, t, 0, 24);
    SuffixRead16(head, t, 24);
    SliceLast(head, t, 26, 34);
    SliceLast(head, t, 34, 34 + |e.fileNameBytes|);
  }

  // ---------------------------------------------------------------------
  // The chain walk

  /** A record decoder, applied wherever the chain leads. */
  type EntryDecoder = Bytes -> Option<FileIdBothDirectoryInformation>

  /** The decoder the response uses. */
  function EntryDecoderOf(text: TextCodec): EntryDecoder {
    d => DecodeEntry(text, d)
  }

  /** The walk of `Response.init(data:)` over an output buffer: decode a
      record, drop its NextEntryOffset bytes, and go on until a record whose
      offset is 0. An offset past the end of what is left, or a record that
      does not fit, is a decoding failure. */
  function WalkChain(decode: EntryDecoder, buf: Bytes): (r: Option<seq<FileIdBothDirectoryInformation>>)
    ensures r.Some? ==>
      && |r.value| > 0
      && Some(r.value[0]) == decode(buf)
      && r.value[|r.value| - 1].nextEntryOffset == 0
      && (forall i | 0 <= i < |r.value| - 1 :: r.value[i].nextEntryOffset != 0)
    decreases |buf|
  {
    var entry :- decode(buf);
    if entry.nextEntryOffset > |buf| then None
    else if entry.nextEntryOffset == 0 then Some([entry])
    else
      var rest :- WalkChain(decode, buf[entry.nextEntryOffset..]);
      Some([entry] + rest)
  }

  /** Where record i starts: the sum of the offsets of the records before it. */
  function Start(files: seq<FileIdBothDirectoryInformation>, i: nat): nat
    requires i <= |files|
  {
    if i == 0 then 0 else Start(files, i - 1) + files[i - 1].nextEntryOffset
  }

  /** Record i decodes where the offsets of the records before it lead. */
  predicate EntryAt(decode: EntryDecoder, buf: Bytes, files: seq<FileIdBothDirectoryInformation>, i: nat)
    requires i < |files|
  {
    Start(files, i) <= |buf| && decode(buf[Start(files, i)..]) == Some(files[i])
  }

  /** `files` is a chain in `buf`: each record decodes where the offsets
      before it lead, every record but the last has a nonzero offset, and the
      last has offset 0. */
  predicate IsChain(decode: EntryDecoder, buf: Bytes, files: seq<FileIdBothDirectoryInformation>) {
    && |files| > 0
    && files[|files| - 1].nextEntryOffset == 0
    && (forall i | 0 <= i < |files| - 1 :: files[i].nextEntryOffset != 0)
    && (forall i | 0 <= i < |files| :: EntryAt(decode, buf, files, i))
  }

  /** Dropping the first record moves every later start back by its offset. */
  lemma {:induction false} StartShift(files: seq<FileIdBothDirectoryInformation>, i: nat)
    requires 0 < |files| && i < |files|
    ensures Start(files, i + 1) == files[0].nextEntryOffset + Start(files[1..], i)
  {
    if i > 0 {
      StartShift(files, i - 1);
      assert files[1..][i - 1] == files[i];
    }
  }

  /** Record i + 1 of a chain is record i of the chain after the first offset. */
  lemma EntryAtShift(decode: EntryDecoder, buf: Bytes, files: seq<FileIdBothDirectoryInformation>, i: nat)
    requires i + 1 < |files|
    requires files[0].nextEntryOffset <= |buf|
    ensures EntryAt(decode, buf, files, i + 1) <==>
      EntryAt(decode, buf[files[0].nextEntryOffset..], files[1..], i)
  {
    var o := files[0].nextEntryOffset;
    StartShift(files, i);
    assert files[i + 1] == files[1..][i];
    if Start(files, i + 1) <= |buf| {
      DropDrop(buf, o, Start(files[1..], i));
    }
  }

  /** The first record of a chain decodes at the start of the buffer. */
  lemma EntryAtFirst(decode: EntryDecoder, buf: Bytes, files: seq<FileIdBothDirectoryInformation>)
    requires 0 < |files|
    ensures EntryAt(decode, buf, files, 0) <==> decode(buf) == Some(files[0])
  {
    assert buf[Start(files, 0)..] == buf;
  }

  /** A chain of more than one record is its first record, a nonzero offset
      and a chain in what follows that offset. */
  lemma ChainTailForward(decode: EntryDecoder, buf: Bytes, files: seq<FileIdBothDirectoryInformation>)
    requires |files| > 1 && IsChain(decode, buf, files)
    ensures 0 < files[0].nextEntryOffset <= |buf|
    ensures decode(buf) == Some(files[0])
    ensures IsChain(decode, buf[files[0].nextEntryOffset..], files[1..])
  {
    var o := files[0].nextEntryOffset;
    var tail := files[1..];
    EntryAtFirst(decode, buf, files);
    assert EntryAt(decode, buf, files, 1);
    assert Start(files, 1) == o;
    forall i | 0 <= i < |tail|
      ensures EntryAt(decode, buf[o..], tail, i)
    {
      EntryAtShift(decode, buf, files, i);
    }
    forall i | 0 <= i < |tail| - 1
      ensures tail[i].nextEntryOffset != 0
    {
      assert files[i + 1] == tail[i];
    }
    assert tail[|tail| - 1] == files[|files| - 1];
  }

  /** The converse: a first record with a nonzero offset in front of a chain
      makes a chain. */
  lemma ChainTailBackward(decode: EntryDecoder, buf: Bytes, files: seq<FileIdBothDirectoryInformation>)
    requires |files| > 1
    requires 0 < files[0].nextEntryOffset <= |buf|
    requires decode(buf) == Some(files[0])
    requires IsChain(decode, buf[files[0].nextEntryOffset..], files[1..])
    ensures IsChain(decode, buf, files)
  {
    var tail := files[1..];
    forall i | 0 <= i < |files|
      ensures EntryAt(decode, buf, files, i)
    {
      if i == 0 {
        EntryAtFirst(decode, buf, files);
      } else {
        EntryAtShift(decode, buf, files, i - 1);
      }
    }
    forall i | 0 <= i < |files| - 1
      ensures files[i].nextEntryOffset != 0
    {
      if i > 0 {
        assert files[i] == tail[i - 1];
      }
    }
    assert tail[|tail| - 1] == files[|files| - 1];
  }

  /** One step of the walk past a record with a nonzero offset. */
  lemma WalkChainStep(decode: EntryDecoder, buf: Bytes)
    requires decode(buf).Some?
    requires 0 < decode(buf).value.nextEntryOffset <= |buf|
    ensures var rest := WalkChain(decode, buf[decode(buf).value.nextEntryOffset..]);
      WalkChain(decode, buf) == if rest.Some? then Some([decode(buf).value] + rest.value) else None
  {
  }

  /** The walk ends at a record whose offset is 0. */
  lemma WalkChainLast(decode: EntryDecoder, buf: Bytes)
    requires decode(buf).Some? && decode(buf).value.nextEntryOffset == 0
    ensures WalkChain(decode, buf) == Some([decode(buf).value])
  {
  }

  /** The walk returns exactly the chains of the buffer. */
  lemma {:induction false} WalkChainIsChain(decode: EntryDecoder, buf: Bytes, files: seq<FileIdBothDirectoryInformation>)
    ensures WalkChain(decode, buf) == Some(files) <==> IsChain(decode, buf, files)
    decreases |buf|
  {
    if |files| > 0 {
      EntryAtFirst(decode, buf, files);
    }
    if |files| > 1 && IsChain(decode, buf, files) {
      ChainTailForward(decode, buf, files);
    }
    var first := decode(buf);
    if |files| == 1 {
      assert files == [files[0]];
    }
    if first.Some? && 0 < first.value.nextEntryOffset <= |buf| {
      WalkChainStep(decode, buf);
      var o := first.value.nextEntryOffset;
      if |files| > 1 && files[0] == first.value {
        WalkChainIsChain(decode, buf[o..], files[1..]);
        if IsChain(decode, buf[o..], files[1..]) {
          ChainTailBackward(decode, buf, files);
        }
        assert files == [files[0]] + files[1..];
      }
    }
  }

  // ---------------------------------------------------------------------
  // Response

  datatype Response = Response(
    header: HeaderBytes,
    structureSize: u16,
    outputBufferOffset: u16,
    outputBufferLength: u32,
    buffer: Bytes,
    files: seq<FileIdBothDirectoryInformation>)

  /** The output buffer named by the fixed body: the slice of `data` at
      OutputBufferOffset, OutputBufferLength bytes long. Reading past the end
      of `data`, a slice outside it, and a slice end overflowing 32 bits all
      fail. */
  function OutputBuffer(data: Bytes): (r: Option<Bytes>)
    ensures r.Some? <==>
      && |data| >= 72
      && ReadU16(data, 66) + ReadU32(data, 68) < 0x1_0000_0000
      && ReadU16(data, 66) + ReadU32(data, 68) <= |data|
    ensures r.Some? ==> r.value == data[ReadU16(data, 66)..ReadU16(data, 66) + ReadU32(data, 68)]
  {
    if |data| < 72 then None
    else
      var offset := ReadU16(data, 66);
      var length := ReadU32(data, 68);
      if offset + length >= 0x1_0000_0000 || offset + length > |data| then None
      else Some(data[offset..offset + length])
  }

  /** `Response.init(data:)`. The header's contents are not decoded here; an
      empty output buffer holds no records, and a nonempty one holds a chain. */
  function DecodeResponse(text: TextCodec, data: Bytes): (r: Option<Response>)
    ensures r.Some? <==>
      && OutputBuffer(data).Some?
      && (|OutputBuffer(data).value| > 0 ==> WalkChain(EntryDecoderOf(text), OutputBuffer(data).value).Some?)
    ensures r.Some? ==>
      && r.value.header == data[..64]
      && r.value.structureSize == ReadU16(data, 64)
      && r.value.buffer == OutputBuffer(data).value
      && r.value.outputBufferOffset == ReadU16(data, 66)
      && r.value.outputBufferLength == ReadU32(data, 68) == |r.value.buffer|
      && (r.value.outputBufferLength == 0 ==> r.value.files == [])
      && (r.value.outputBufferLength > 0 ==> IsChain(EntryDecoderOf(text), r.value.buffer, r.value.files))
  {
    var buffer :- OutputBuffer(data);
    var header, structureSize := data[..64], ReadU16(data, 64);
    var offset, length := ReadU16(data, 66), ReadU32(data, 68);
    if length == 0 then Some(Response(header, structureSize, offset, length, buffer, []))
    else
      var decode := EntryDecoderOf(text);
      var files :- WalkChain(decode, buffer);
      WalkChainIsChain(decode, buffer, files);
      Some(Response(header, structureSize, offset, length, buffer, files))
  }

  // ---------------------------------------------------------------------
  // The server side of the chain: the reference encoding

  /** The zero bytes a server puts after a record so that the next one
      starts at its NextEntryOffset (usually an 8-byte boundary). */
  function Padding(e: RawEntry): nat {
    if e.nextEntryOffset > EntryFixedSize + |e.fileNameBytes|
    then e.nextEntryOffset - (EntryFixedSize + |e.fileNameBytes|)
    else 0
  }

  /** Records laid out one after another, each followed by its padding. */
  function EncodeChain(es: seq<RawEntry>): (r: Bytes)
    requires forall i | 0 <= i < |es| :: ValidRawEntry(es[i])
  {
    if |es| == 0 then [] else EncodeEntry(es[0]) + Zeros(Padding(es[0])) + EncodeChain(es[1..])
  }

  /** Each record's offset reaches at least past its own bytes, except the
      last one's, which is 0. */
  predicate LinkedChain(es: seq<RawEntry>) {
    && |es| > 0
    && (forall i | 0 <= i < |es| :: ValidRawEntry(es[i]))
    && (forall i | 0 <= i < |es| - 1 :: es[i].nextEntryOffset >= EntryFixedSize + |es[i].fileNameBytes|)
    && es[|es| - 1].nextEntryOffset == 0
  }

  function ShownAll(text: TextCodec, es: seq<RawEntry>): (fs: seq<FileIdBothDirectoryInformation>)
    requires forall i | 0 <= i < |es| :: ValidRawEntry(es[i])
    ensures |fs| == |es|
    ensures forall i | 0 <= i < |es| :: fs[i] == Shown(text, es[i])
  {
    seq(|es|, i requires 0 <= i < |es| => Shown(text, es[i]))
  }

  lemma LinkedChainTail(es: seq<RawEntry>)
    requires LinkedChain(es) && |es| > 1
    ensures LinkedChain(es[1..])
  {
    forall i | 0 <= i < |es| - 2
      ensures es[1..][i].nextEntryOffset >= EntryFixedSize + |es[1..][i].fileNameBytes|
    {
      assert es[1..][i] == es[i + 1];
    }
  }

  /** Decoding the first record of an encoded chain and dropping its offset. */
  lemma ChainHead(text: TextCodec, es: seq<RawEntry>)
    requires LinkedChain(es)
    ensures var buf := EncodeChain(es);
      && EntryDecoderOf(text)(buf) == Some(Shown(text, es[0]))
      && (|es| > 1 ==> 0 < es[0].nextEntryOffset <= |buf| && buf[es[0].nextEntryOffset..] == EncodeChain(es[1..]))
      && (|es| == 1 ==> es[0].nextEntryOffset == 0)
  {
    var e := es[0];
    var rest := EncodeChain(es[1..]);
    var after := Zeros(Padding(e)) + rest;
    assert EncodeChain(es) == EncodeEntry(e) + after;
    EntryRoundTrip(text, e, after);
    if |es| > 1 {
      assert (EncodeEntry(e) + after)[|EncodeEntry(e)| + Padding(e)..] == rest;
    }
  }

  lemma ShownAllCons(text: TextCodec, es: seq<RawEntry>)
    requires 0 < |es| && forall i | 0 <= i < |es| :: ValidRawEntry(es[i])
    ensures ShownAll(text, es) == [Shown(text, es[0])] + ShownAll(text, es[1..])
  {
  }

  /** Walking a linked chain of records gives back what the client shows of
      each, in order. */
  lemma {:induction false} ChainRoundTrip(text: TextCodec, es: seq<RawEntry>)
    requires LinkedChain(es)
    ensures WalkChain(EntryDecoderOf(text), EncodeChain(es)) == Some(ShownAll(text, es))
    decreases |es|
  {
    var decode := EntryDecoderOf(text);
    var buf := EncodeChain(es);
    var first := Shown(text, es[0]);
    ChainHead(text, es);
    assert decode(buf) == Some(first);
    ShownAllCons(text, es);
    if |es| > 1 {
      LinkedChainTail(es);
      ChainRoundTrip(text, es[1..]);
      assert first.nextEntryOffset == es[0].nextEntryOffset;
      WalkChainStep(decode, buf);
      assert WalkChain(decode, buf[first.nextEntryOffset..]) == Some(ShownAll(text, es[1..]));
    } else {
      assert first.nextEntryOffset == 0;
      WalkChainLast(decode, buf);
      assert ShownAll(text, es) == [first];
    }
  }

  /** A server's response: the header, StructureSize 9 and the output
      buffer right after the 72-byte fixed part. */
  function EncodeResponse(header: HeaderBytes, buffer: Bytes): (r: Bytes)
    requires 72 + |buffer| < 0x1_0000_0000
    ensures |r| == 72 + |buffer|
  {
    header + LE16(9) + LE16(72) + LE32(|buffer|) + buffer
  }

  /** The fixed body of an encoded response names its buffer. */
  lemma ResponseBuffer(header: HeaderBytes, buffer: Bytes)
    requires 72 + |buffer| < 0x1_0000_0000
    ensures var r := EncodeResponse(header, buffer);
      && r[..64] == header
      && ReadU16(r, 64) == 9
      && ReadU16(r, 66) == 72
      && ReadU32(r, 68) == |buffer|
      && OutputBuffer(r) == Some(buffer)
  {
    var r := EncodeResponse(header, buffer);
    var p1 := header;
    var p2 := p1 + LE16(9);
    var p3 := p2 + LE16(72);
    var p4 := p3 + LE32(|buffer|);
    assert r == p4 + buffer;
    assert r[..|p4|] == p4;
    Field32(r, p3, |buffer|);
    Field16(r, p2, 72);
    Field16(r, p1, 9);
    assert r[72..72 + |buffer|] == buffer;
  }

  /** Decoding a server's response gives its header and buffer back, and the
      records of the chain in order. */
  lemma ResponseRoundTrip(text: TextCodec, header: HeaderBytes, es: seq<RawEntry>)
    requires LinkedChain(es)
    requires 72 + |EncodeChain(es)| < 0x1_0000_0000
    ensures var chain := EncodeChain(es);
      DecodeResponse(text, EncodeResponse(header, chain))
        == Some(Response(header, 9, 72, |chain|, chain, ShownAll(text, es)))
  {
    var chain := EncodeChain(es);
    ResponseBuffer(header, chain);
    ChainHead(text, es);
    ChainRoundTrip(text, es);
  }
}

=== FILE: wrappers.dfy ===
/** Failure-compatible Option, used for every decoder that can meet a truncated
    or malformed buffer. */
module Wrappers {

  datatype Option<+T> = None | Some(value: T) {

    predicate IsFailure() {
      None?
    }

    function PropagateFailure<U>(): Option<U>
      requires None?
    {
      None
    }

    function Extract(): T
      requires Some?
    {
      value
    }

    /** Swift's `??` operator. */
    function GetOr(default: T): T {
      match this
      case Some(v) => v
      case None => default
    }
  }
}
